=== FILE: README.md ===
# Learning platform core, modelled in Dafny

This project models the pure decision logic of a React + PocketBase course platform:

- the service layer in `src/lib/pocketbase.ts`: error translation, auth and role guards, filter
  strings, file URLs and the resource upload form;
- the three client stores: reviews by course, the current course with its lesson progress, and
  the user profile;
- the state handlers of the components that edit notes, reviews and site settings, and the
  progress bar milestones.

Every remote call is split in two. First comes a pure *plan*: `Reject(error)` when the service
method throws before calling the server, `Send(request)` otherwise. Then comes the *settling*
step, which takes the server's answer as a parameter. Clocks, UUIDs, `window.confirm`,
`JSON.stringify` and URL validity are parameters too. JavaScript objects whose key order matters
(a profile, the settings form) are ordered key/value lists (`Js.Entries`). Object spread is
`Js.Set` and `Js.Merge`.

Modules follow the source files:

| module | source |
|---|---|
| `Wrappers` | Option and Result types |
| `Js` | JavaScript helpers: `trim`, truthiness, `||`, object spread and lookup, `toString` |
| `Lists` | replace-by-id and remove-by-id on arrays |
| `PocketBase` | `src/lib/pocketbase.ts` |
| `ReviewStore`, `CourseStore`, `UserStore` | `src/store/*.ts` |
| `LessonNotes`, `ReviewList`, `ReviewForm`, `CourseReviews`, `SiteSettings`, `ProgressBar` | the components of the same names |

## Model

| member | source | states |
|---|---|---|
| PocketBase.HandlePocketbaseError | src/lib/pocketbase.ts:125-144 | the handler never yields an SDK error. An SDK error becomes a plain error carrying the fixed message for its status. Any other value passes through unchanged. |
| PocketBase.StatusMessagesDistinct | src/lib/pocketbase.ts:129-141 | the generic message is reached exactly by the unhandled statuses. Two different handled statuses never share a message. |
| PocketBase.HandlerIdempotent | src/lib/pocketbase.ts:125-144 | applying the handler to its own output changes nothing, so a value that is thrown twice keeps its message |
| PocketBase.MessageOr | src/lib/pocketbase.ts:476 | the rewrapped error keeps the message of an `Error`. Any other thrown value gets the fallback text. |
| PocketBase.CurrentUser | src/lib/pocketbase.ts:670-675 | there is a current user iff the token is valid and a model is present, and then it is that model |
| PocketBase.RolesExclusive | src/lib/pocketbase.ts:681-698 | at most one of the instructor, admin and student predicates holds. None holds without a valid token. One holds iff the model's role is one of the three. |
| PocketBase.IsInstructor | src/lib/pocketbase.ts:685-688 | `isInstructor()` holds exactly for a valid session whose stored user has the role "instructor" |
| PocketBase.IsAdmin | src/lib/pocketbase.ts:690-693 | `isAdmin()` holds exactly for a valid session whose stored user has the role "admin". The `admin` flag plays no part. |
| PocketBase.IsStudent | src/lib/pocketbase.ts:695-698 | `isStudent()` holds exactly for a valid session whose stored user has the role "student" |
| PocketBase.FieldEquals | src/lib/pocketbase.ts:235 | the filter is the field name, then ` = "`, then the id, then a closing quote, and its length is accounted for exactly |
| PocketBase.FieldEqualsInjective | src/lib/pocketbase.ts:294 | two ids yield the same filter on a field only if they are equal, so each lesson, resource, note or review query selects by one id |
| PocketBase.LessonsFilter | src/lib/pocketbase.ts:235 | a course's lessons are selected by `course = "<courseId>"` |
| PocketBase.ResourcesFilter | src/lib/pocketbase.ts:294 | a lesson's resources are selected by `lesson = "<lessonId>"` |
| PocketBase.NotesFilter | src/lib/pocketbase.ts:387 | a lesson's notes are selected by `lesson = "<lessonId>"` |
| PocketBase.ReviewsFilter | src/lib/pocketbase.ts:452 | a course's reviews are selected by `course = "<courseId>"` |
| PocketBase.FiltersShareShape | src/lib/pocketbase.ts:235-452 | resources and notes of a lesson share one filter, as do lessons and reviews of a course. A course filter never equals a lesson filter. |
| PocketBase.EnrollmentsFilter | src/lib/pocketbase.ts:516 | the filter is empty exactly when the user id is missing or empty. Otherwise it is `user = "<id>"`. |
| PocketBase.SplitAtSlash | src/lib/pocketbase.ts:677-679 | a path `a/x` with no slash in `a` determines both `a` and `x` |
| PocketBase.FilesUrlInjective | src/lib/pocketbase.ts:677-679 | within one collection, file URLs of records whose ids contain no slash differ unless both the record id and the file name agree |
| PocketBase.RecordFileUrl | src/lib/pocketbase.ts:677-679 | the standalone helper's URL is `http://127.0.0.1:8090/api/files/`, then the collection id, a slash, the record id, a slash and the file name. The base is the hard-coded development server, whatever client is configured. |
| PocketBase.ResourceFileUrl | src/lib/pocketbase.ts:347-379 | a non-empty link wins. With neither link nor file the URL is empty. Otherwise it is the files URL under a valid base, or '' under an invalid one. |
| PocketBase.ResourceFileUrlNamesRecord | src/lib/pocketbase.ts:347-379 | without a link, two resources whose ids hold no '/' get the same non-empty URL only if they have the same id and the same file |
| PocketBase.ResourceForm | src/lib/pocketbase.ts:313-327 | the upload form starts with lesson, title and type. A description is appended iff it is non-empty. The file is appended iff chosen. The link is appended iff there is no file and the link is non-empty. Keys never repeat and file and link never both appear. |
| PocketBase.Settle | src/lib/pocketbase.ts:187-202 | a method that threw before calling out yields its own error. Otherwise the server's value is returned, or the server's error rewritten by the method's catch. |
| PocketBase.RejectIgnoresRemote | src/lib/pocketbase.ts:187-202 | a method that threw before calling out keeps its own error, whatever the server would have answered |
| PocketBase.CourseChange | src/lib/pocketbase.ts:182-227 | updating or deleting a course checks, in order: the course exists, then the token is valid, then the caller is the course's instructor or an admin, each with its own message. The remote write happens exactly when all three pass. |
| PocketBase.CourseChangeNeedsOwnerOrAdmin | src/lib/pocketbase.ts:182-227 | a course write is sent only for a course that was found, in a valid session with a stored user, and only when that user has the `admin` flag or is the course's instructor |
| PocketBase.AdminRoleAloneRefused | src/lib/pocketbase.ts:190-198 | the guard reads the `admin` flag, not the role. A user with role "admin" but no flag is refused on another instructor's course, with the action's forbidden message, although `isAdmin()` holds. |
| PocketBase.CourseActionsAgree | src/lib/pocketbase.ts:182-227 | updating and deleting a course are allowed for exactly the same callers |
| PocketBase.SettingsChange | src/lib/pocketbase.ts:585-607 | settings are created or updated exactly when the token is valid and the model is an admin. Otherwise the action's own message is thrown. |
| PocketBase.SettingsActionsAgree | src/lib/pocketbase.ts:585-607 | creating and updating settings are allowed for exactly the same sessions, and changing the user's role never changes the decision |
| PocketBase.ReviewCreate | src/lib/pocketbase.ts:463-478 | creating a review is refused iff the token is invalid. The request carries the model id as the user. |
| PocketBase.ReviewUpdate | src/lib/pocketbase.ts:480-495 | updating a review is refused iff the token is invalid. Only rating and comment are sent. |
| PocketBase.ReviewDelete | src/lib/pocketbase.ts:497-509 | deleting a review is refused iff the token is invalid |
| PocketBase.ReviewGuardsAgree | src/lib/pocketbase.ts:463-509 | the create, update and delete review calls refuse exactly the same sessions |
| PocketBase.ReviewFailure | src/lib/pocketbase.ts:474-477 | the review calls' catch always throws a plain `Error`, carrying the caught error's message or the call's fallback text |
| PocketBase.ReviewFailureDropsStatus | src/lib/pocketbase.ts:463-478 | a server refusal of a review create reaches the caller as a plain `Error` with the server's message, so its status is lost |
| PocketBase.NoteCreate | src/lib/pocketbase.ts:398-418 | creating a note is refused iff the model id is missing or empty, and the handler keeps the message 'User not authenticated'. The note is stamped with that id. |
| PocketBase.NoteGuardIgnoresToken | src/lib/pocketbase.ts:398-478 | with an expired token but a leftover user id, a note is still created while a review is refused |
| Js.Trim | src/components/LessonNotes.tsx:74-75 | the result is the input with its leading and trailing whitespace removed: a substring of the input with only whitespace before and after it, and no whitespace at either end. It is empty iff the input is all whitespace. |
| Js.TrimIdempotent | src/components/LessonNotes.tsx:80-81 | trimming twice is trimming once |
| Js.Set | src/components/SiteSettings.tsx:82-87 | after a property write the key holds the new value and every other key is unchanged. An existing key keeps its position; a new key goes at the end. |
| Js.Merge | src/store/userStore.ts:28-30 | after a spread, a key holds the spread object's value if it has one and the old value otherwise. Distinct keys stay distinct. |
| Js.MergeIdempotent | src/store/userStore.ts:28-30 | spreading the same properties twice is spreading them once |
| Js.SetTwice | src/components/SiteSettings.tsx:89-97 | writing the same property twice is writing it once |
| Lists.ReplaceByKey | src/components/LessonNotes.tsx:52 | replacing by id keeps the length, swaps in the new element exactly where the ids match, and leaves the rest alone |
| Lists.RemoveByKey | src/components/LessonNotes.tsx:67 | filtering by id keeps exactly the elements with other ids and never grows the list |
| Lists.RemoveAppend | src/components/LessonNotes.tsx:67 | filtering distributes over concatenation, so the survivors keep their relative order |
| Lists.RemoveIdempotent | src/store/reviewStore.ts:42-48 | removing the same id twice is removing it once |
| Lists.RemoveAbsent | src/store/reviewStore.ts:42-48 | removing an id that does not occur changes nothing |
| Lists.RemoveAfterReplace | src/components/LessonNotes.tsx:49-69 | deleting a record after updating it leaves the same list as deleting it directly |
| ReviewStore.GetReviewsByCourse | src/store/reviewStore.ts:49 | a course with no stored list reads as the empty list. Otherwise the stored list is returned unchanged. |
| ReviewStore.AddReview | src/store/reviewStore.ts:23-32 | the review is appended at the end of its course's list, which grows by one. A new course gets `[review]`. No other course changes. |
| ReviewStore.AddThenGet | src/store/reviewStore.ts:23-32 | reading a course's reviews after adding one returns the old list plus that review last |
| ReviewStore.UpdateReview | src/store/reviewStore.ts:33-41 | the update succeeds iff the course has a list. Each review with the same id is replaced and the other reviews and courses stay. |
| ReviewStore.DeleteReview | src/store/reviewStore.ts:42-48 | the delete succeeds iff the course has a list. It keeps exactly the reviews with other ids and touches no other course. |
| ReviewStore.DeleteIdempotent | src/store/reviewStore.ts:42-48 | deleting a review twice is deleting it once |
| ReviewStore.DeleteKeepsOrder | src/store/reviewStore.ts:42-48 | deleting from a list split in two deletes from each part in place |
| ReviewStore.UpdateIdempotent | src/store/reviewStore.ts:33-41 | updating with the same review twice is updating once |
| ReviewStore.UpdateThenDelete | src/store/reviewStore.ts:33-48 | deleting an updated review leaves the same list as deleting it without the update |
| CourseStore.SetCurrentCourse | src/store/courseStore.ts:12 | the current course is replaced wholesale |
| CourseStore.CountCompleted | src/store/courseStore.ts:23-24 | the count is at most the number of lessons. It is 0 iff no lesson is completed, and equals the lesson count iff all are. |
| CourseStore.RoundPercent | src/store/courseStore.ts:23-25 | progress is 100·done/total rounded half up. It lies in [0, 100], is 0 with nothing done and 100 with everything done. |
| CourseStore.RoundedPercentUnique | src/store/courseStore.ts:23-25 | at most one integer is the rounded percentage, so the progress value is determined by the counts |
| CourseStore.FlipLesson | src/store/courseStore.ts:17-21 | exactly the lessons with the given id change their completion flag, and nothing else changes |
| CourseStore.FlipTwice | src/store/courseStore.ts:17-21 | toggling a lesson twice restores the lesson list |
| CourseStore.ToggleLessonComplete | src/store/courseStore.ts:13-34 | with no current course nothing changes. Otherwise the lessons are flipped, progress is the rounded share of completed lessons, and every other course field is kept. |
| CourseStore.ToggleProgressExtremes | src/store/courseStore.ts:23-25 | after a toggle, progress is 0 if no lesson is completed and 100 if all are. The converse does not hold (see ExtremesNotConverse). |
| CourseStore.ExtremesNotConverse | src/store/courseStore.ts:23-25 | with 201 lessons, 1 completed still rounds to 0% and 200 completed already round to 100% |
| CourseStore.ToggleTwice | src/store/courseStore.ts:13-34 | toggling the same lesson twice restores the lessons and recomputes the progress they imply |
| UserStore.SetCurrentUser | src/store/userStore.ts:25 | the current user is replaced, also by null |
| UserStore.UpdateProfile | src/store/userStore.ts:26-31 | a null user stays null. Otherwise every key of the update takes its new value and every other key keeps its old one. An empty update changes nothing. |
| UserStore.UpdateProfileIdempotent | src/store/userStore.ts:26-31 | applying the same profile update twice is applying it once |
| LessonNotes.Cached | src/components/LessonNotes.tsx:37-67 | a lesson with nothing cached reads as the empty list (`old = []`); otherwise its cached notes are read unchanged |
| LessonNotes.CreatedInCache | src/components/LessonNotes.tsx:35-40 | a created note goes to the front of its lesson's cached list, a missing list counting as empty. Other lessons are untouched. |
| LessonNotes.UpdatedInCache | src/components/LessonNotes.tsx:49-53 | an updated note replaces the cached notes with its id, in place, and other lessons are untouched |
| LessonNotes.DeletedInCache | src/components/LessonNotes.tsx:64-69 | the lesson's cached list becomes exactly the old list without the notes of that id, in their old order. Other lessons are untouched. |
| LessonNotes.DeleteTwice | src/components/LessonNotes.tsx:64-69 | deleting the same note twice is deleting it once |
| LessonNotes.CreateThenDelete | src/components/LessonNotes.tsx:35-69 | deleting a freshly created note whose id was new restores the lesson's list |
| LessonNotes.HandleSubmit | src/components/LessonNotes.tsx:72-77 | a note is created iff the draft is not blank, and then with the trimmed, non-empty text |
| LessonNotes.StartEditing | src/components/LessonNotes.tsx:87-90 | editing a note selects its id and loads its text into the editor, leaving the draft alone |
| LessonNotes.CancelEditing | src/components/LessonNotes.tsx:166 | cancelling leaves edit mode and keeps the editor text and draft |
| LessonNotes.HandleUpdate | src/components/LessonNotes.tsx:79-85 | an update is sent iff the trimmed editor text differs from the note's text. Otherwise edit mode just closes. |
| LessonNotes.SaveUntouched | src/components/LessonNotes.tsx:79-90 | saving a note right after opening it, when its text is already trimmed, sends nothing |
| LessonNotes.SettleCreate | src/components/LessonNotes.tsx:30-41 | the cache changes only once the create succeeds, and never on failure (there is no rollback to model) |
| LessonNotes.SettleUpdate | src/components/LessonNotes.tsx:44-56 | a successful update patches the cache and closes the editor. A failed one changes nothing. |
| LessonNotes.SettleDelete | src/components/LessonNotes.tsx:59-70 | a successful delete filters the cache. A failed one changes nothing. |
| LessonNotes.SubmitDraft | src/lib/pocketbase.ts:398-418 | submitting a draft without a signed-in user, with a blank draft, or with a failing server leaves the view unchanged. With a user, a non-blank draft and a successful server, the created note enters the cache and the panel stays as it was. |
| LessonNotes.GetErrorMessage | src/components/LessonNotes.tsx:93-101 | a 403 SDK error gets the permission text, another SDK error its own message, anything else the generic text |
| LessonNotes.QueryErrorMessage | src/components/LessonNotes.tsx:103-111 | the message shown for a failed notes query, as written, is always the generic text |
| LessonNotes.PermissionMessageUnreachable | src/lib/pocketbase.ts:392-395 | a 403 from the notes query never shows the permission text |
| LessonNotes.QueryErrorMessageIntended | src/components/LessonNotes.tsx:93-101 | the corrected query error display distinguishes 403, other SDK errors and everything else |
| ReviewList.HandleSubmit | src/components/ReviewList.tsx:61-83 | nothing is sent without a user. In edit mode with a selected review, that review is updated with the form's rating and comment. Otherwise a review is created for the course. |
| ReviewList.HandleEdit | src/components/ReviewList.tsx:85-94 | with a user, edit mode opens on the review and loads its rating and comment. Without a user nothing changes. |
| ReviewList.HandleDelete | src/components/ReviewList.tsx:96-104 | a delete is sent iff there is a user and the confirmation was accepted |
| ReviewList.ClickStar | src/components/ReviewList.tsx:140 | clicking star k sets the rating to k + 1, in 1..5, and keeps the rest of the form |
| ReviewList.CreateSucceeded | src/components/ReviewList.tsx:26-30 | after a create the comment is cleared and the rating is back to 5, with the edit state kept |
| ReviewList.UpdateSucceeded | src/components/ReviewList.tsx:39-45 | after an update the form is back to its initial state |
| ReviewList.Cancel | src/components/ReviewList.tsx:172-177 | the Cancel button returns the form to the state it mounted with, whatever was being edited, so opening and then cancelling an edit always ends in the initial form |
| ReviewList.EditThenSubmit | src/components/ReviewList.tsx:61-94 | submitting right after opening an edit updates that review with its own rating and comment |
| ReviewList.SubmitAfterUpdateCreates | src/components/ReviewList.tsx:39-83 | after a successful update and a non-empty comment typed into the cleared field, the next submit creates a review for the panel's course with rating 5 and that comment |
| ReviewList.RenderStars | src/components/ReviewList.tsx:106-115 | star k is filled iff k < rating |
| ReviewList.StarsArePrefix | src/components/ReviewList.tsx:106-115 | filled stars form a prefix. All five are filled from 5 up and none at 0 or below. |
| ReviewList.CanModify | src/components/ReviewList.tsx:209 | the edit and delete controls appear only when a user is signed in and is the review's author |
| ReviewList.OwnershipByAuthor | src/components/ReviewList.tsx:209 | ownership depends on the author alone: editing rating or comment never changes it, and two users with different ids never both own a review |
| ReviewList.OwnControlsAct | src/components/ReviewList.tsx:209 | for the review's owner the edit control opens edit mode and the delete control, once confirmed, deletes that review |
| ReviewList.FailureAlert | src/components/ReviewList.tsx:31-59 | a failed create, update or delete alerts the error's message when it is an Error, and the mutation's own fallback text otherwise |
| ReviewForm.Validate | src/components/reviews/ReviewForm.tsx:9-12 | a rating error is reported iff the rating is outside 1..5, and a length error iff the content is shorter than 10 |
| ReviewForm.ValidIff | src/components/reviews/ReviewForm.tsx:9-12 | the form is valid exactly for ratings 1..5 with at least 10 characters |
| ReviewForm.DefaultsRejected | src/components/reviews/ReviewForm.tsx:34-37 | the default values fail both checks |
| ReviewForm.OnSubmit | src/components/reviews/ReviewForm.tsx:42-57 | without a user nothing happens. Otherwise the review, stamped with the user, course and UUID, is added to the store and the success callback runs. Creation and update times are two separate clock readings. |
| ReviewForm.Submit | src/components/reviews/ReviewForm.tsx:42-60 | an invalid form never reaches the submit handler |
| ReviewForm.SubmitAddsOne | src/components/reviews/ReviewForm.tsx:42-57 | a valid submission by a signed-in user appends one valid review by that user to the course and changes no other course |
| ReviewForm.LitStarsFollowHover | src/components/reviews/ReviewForm.tsx:77 | while a star is hovered the stars up to it are lit, otherwise those up to the rating |
| CourseReviews.HandleSubmitReview | src/components/CourseReviews.tsx:35-50 | submitting with rating 0 or a blank comment does nothing. Otherwise a review with the trimmed, non-empty comment goes first and the rating and comment are cleared. |
| CourseReviews.SubmitTwice | src/components/CourseReviews.tsx:35-50 | a second submit straight after an accepted one is ignored |
| CourseReviews.Ceil | src/components/CourseReviews.tsx:82 | the ceiling is the least integer not below the value |
| CourseReviews.StaticStars | src/components/CourseReviews.tsx:52-95 | five stars. Star k + 1 is full iff k + 1 ≤ floor(value), and half iff k + 1 = ceil(value) and the value is fractional. |
| CourseReviews.StaticStarsShape | src/components/CourseReviews.tsx:77-91 | the row reads full, then at most one half, then empty. A fractional value strictly between 0 and 5 shows its half star right after the full ones. A whole value shows none. |
| CourseReviews.InteractiveStars | src/components/CourseReviews.tsx:54-76 | star k + 1 is lit iff k + 1 ≤ (hovered \|\| rating) |
| CourseReviews.HoverLightsPrefix | src/components/CourseReviews.tsx:63 | hovering star i lights exactly stars 1..i whatever the rating |
| CourseReviews.MouseEnter | src/components/CourseReviews.tsx:63 | pointing at star i previews i and changes nothing else |
| CourseReviews.MouseLeave | src/components/CourseReviews.tsx:64 | leaving a star clears the preview and changes nothing else |
| CourseReviews.Click | src/components/CourseReviews.tsx:61-67 | the intended star click, as if the star were a `type="button"` like the other star rows: it sets the rating to i and changes nothing else (see Findings) |
| CourseReviews.ClickThenLeave | src/components/CourseReviews.tsx:61-67 | with the intended click, clicking star i and leaving the row lights exactly stars 1..i |
| CourseReviews.ClickAsWritten | src/components/CourseReviews.tsx:61-67 | the type-less star button also submits the form: with rating i and a blank or empty comment only the rating changes, otherwise a review with rating i is put first and rating and comment are cleared |
| CourseReviews.ClickSubmitsReview | src/components/CourseReviews.tsx:35-67 | with a non-blank comment a star click differs from the intended one, and after leaving the row no star is lit |
| CourseReviews.ClickSubmitsExample | src/components/CourseReviews.tsx:35-67 | rating 3, comment "great", click on star 4: one review rated 4 is posted and the form is wiped, where the intended click only sets the rating to 4 |
| CourseReviews.RatingLabel | src/components/CourseReviews.tsx:121-125 | a label is shown iff the rating is positive, and it names 5 to 2 as Excellent!, Very Good, Good, Fair and anything else as Poor |
| Js.ToString | src/components/SiteSettings.tsx:70 | `toString()` gives a string back unchanged, an integer as its decimal digits with a leading '-' exactly when negative, a boolean as 'true' or 'false', and an object as '[object Object]' |
| Js.NatToStringValue | src/components/SiteSettings.tsx:70 | the decimal digits `toString()` writes for a non-negative integer read back, most significant first, as that same integer, so distinct numbers print differently |
| SiteSettings.FieldEntry | src/components/SiteSettings.tsx:66-72 | social links and theme colours are always sent as JSON. Any other field is sent as its string iff it is neither undefined nor null and is not `logo_url`. |
| SiteSettings.Fields | src/components/SiteSettings.tsx:66-72 | only form keys are sent, `logo_url` never is, and all values are text. For a proper object, each key's entry is exactly what its value calls for and keys do not repeat. |
| SiteSettings.FieldsAppend | src/components/SiteSettings.tsx:66-72 | fields are appended in the form's own order |
| SiteSettings.Serialise | src/components/SiteSettings.tsx:60-80 | the request is the form's fields followed by `site_logo` iff a logo was chosen. The only file entry is that logo, and it comes last. |
| SiteSettings.HandleInputChange | src/components/SiteSettings.tsx:82-87 | typing sets only the named field, to the typed string |
| SiteSettings.SetNested | src/components/SiteSettings.tsx:89-107 | a nested write sets one slot of one nested object, keeps that object's other slots and every other field |
| SiteSettings.HandleSocialLinkChange | src/components/SiteSettings.tsx:89-97 | only the given platform's link changes |
| SiteSettings.HandleColorChange | src/components/SiteSettings.tsx:99-107 | only the given colour slot changes |
| SiteSettings.LinksAndColoursIndependent | src/components/SiteSettings.tsx:89-107 | changing a link never changes the colours, and changing a colour never changes the links |
| SiteSettings.SocialLinkIdempotent | src/components/SiteSettings.tsx:89-97 | entering the same link twice is entering it once |
| SiteSettings.HandleLogoChange | src/components/SiteSettings.tsx:109-113 | the first chosen file becomes the logo. An empty choice keeps the previous one. |
| SiteSettings.MaintenanceShown | src/components/SiteSettings.tsx:249 | the switch is off when the form has no `maintenance_mode`, and shows the stored boolean when it has one |
| SiteSettings.ToggleMaintenance | src/components/SiteSettings.tsx:250-252 | the switch then shows the chosen state and no other field changes |
| SiteSettings.SaveSettings | src/components/SiteSettings.tsx:39-43 | without a settings id the save fails with 'No settings ID found' before any call. Otherwise the outcome is the server's. |
| SiteSettings.FailureToast | src/components/SiteSettings.tsx:50-56 | the toast reads 'Failed to update settings. ' followed by the error's message, or by 'undefined' for a thrown non-Error |
| SiteSettings.MissingIdToast | src/components/SiteSettings.tsx:50-56 | saving without an id always toasts 'Failed to update settings. No settings ID found' |
| ProgressBar.Highlights | src/components/ProgressBar.tsx:31-36 | a milestone is drawn as reached iff progress is at or past its threshold |
| ProgressBar.HighlightsArePrefix | src/components/ProgressBar.tsx:9-13 | with ascending thresholds the reached milestones form a prefix of the list |
| ProgressBar.HighlightsMonotone | src/components/ProgressBar.tsx:35 | more progress never un-reaches a milestone |
| ProgressBar.MilestonesAscending | src/components/ProgressBar.tsx:9-13 | the thresholds 33, 66 and 100 ascend |
| ProgressBar.HighlightsMatchCount | src/components/ProgressBar.tsx:9-35 | exactly the first n milestones are reached, where n counts the thresholds 33, 66 and 100 that progress meets |
| ProgressBar.HighlightsAtExtremes | src/components/ProgressBar.tsx:10-12 | below 33 no milestone is reached. From 100 all three are. |

## Left out

- The PocketBase client set-up, auth persistence in local storage, login, registration and logout. These are browser I/O and a foreign SDK.
- The remote collection calls (`getList`, `getOne`, `create`, `update`, `delete`), React Query caching and invalidation, toasts and alerts as side effects. Server answers are parameters of the settling functions.
- `JSON.stringify`, the `new URL` validity check, `Date`, `crypto.randomUUID` and `window.confirm`. Each is a parameter.
- `siteSettingsService` is imported by `src/components/SiteSettings.tsx` and `src/hooks/useSiteSettings.ts` but is not defined in `src/lib/pocketbase.ts`. Its `get` and `update` are not part of this model, so only the guard in front of `update` is modelled.
- The backend migrations. They are schema declarations with no behaviour of their own.
- Presentational components and pages: support, login, profile, course access manager, settings page, the site-settings hook, and all layout and styling.
- CourseStore.RoundPercent: progress is exact integer round-half-up arithmetic, not `Math.round` on a binary float. The two differ where done/total is an exact .5 percentage that the float quotient misses from below: 23 of 40 lessons is 57% in the source and 58% here. For totals up to 200, the other cases are 46/80, 69/120, 92/160, and 29, 57, 113 and 115 of 200. An empty lesson list, for which the source yields NaN, is excluded by precondition.
- CourseReviews: the average rating (`getAverageRating` with `toFixed(1)`) is float formatting and is left out. Star values are Dafny reals, so `% 1` and `Math.ceil` are exact.
- Js.JsValue has no arrays and no numbers other than integers. Spreading a string or an array as a nested settings object is not modelled (a non-object spreads as `{}`).
- Js.Trim uses the ECMAScript white-space and line-terminator set over Unicode code points.
- ReviewForm.Validate: content length counts code points, while zod counts UTF-16 code units. The two differ only for characters outside the Basic Multilingual Plane.
- Js.Set: a new key is appended at the end. JavaScript objects list integer-like keys first in ascending order, which the model does not. No key the modelled code writes is integer-like.
- ReviewStore.DeleteReview: like UpdateReview, a missing course list makes the source throw a `TypeError`, which the model returns as `None`.
- ReviewStore.UpdateReview: a missing course list makes the source throw a `TypeError`. The model returns `None` and leaves no store. Keys inherited from the object prototype are not modelled.
- ReviewList.HandleSubmit: the browser's `required` check, which refuses to submit a form while a required field is empty, is not modelled. It guards the comment of ReviewList.tsx:159 and the `site_name` input of SiteSettings.tsx:145, so the models of those submits also accept an empty value the browser would stop. The review widget's textarea at CourseReviews.tsx:133 is covered only through CourseReviews.ClickAsWritten; its `handleSubmitReview` already ignores a blank comment.
- CourseStore.ToggleLessonComplete: requires the current course, when there is one, to have at least one lesson. The source accepts a course with no lessons and stores NaN as its progress, which the integer model cannot represent.
- ReviewForm.ErrorMessage: zod's default message text for the rating error is not modelled.
- The paging (`1, 50`), sort and expand options of the list queries. They shape the server's answer, which is a parameter.

## Findings

| source | as written | input that shows it | evidently intended | confidence | as-written member | corrected member |
|---|---|---|---|---|---|---|
| src/components/LessonNotes.tsx:93-111 with src/lib/pocketbase.ts:392-395 | `lessonNoteService.getAll` rethrows every failure through `handlePocketbaseError`, which turns each SDK error into a plain `Error`. The notes panel's `getErrorMessage` only recognises SDK errors, so it always shows 'An unexpected error occurred'. | the notes query fails with an SDK error of status 403 | a 403 shows the permission hint and another SDK error shows its message, as `getErrorMessage` is written to do | high; not executed | LessonNotes.QueryErrorMessage | LessonNotes.QueryErrorMessageIntended |
| src/components/CourseReviews.tsx:61-67 with src/components/CourseReviews.tsx:115 | The interactive star `<button>`s have no `type` attribute. Inside the review form each one is therefore a submit button: clicking a star sets the rating and then submits the form. | rating 3, comment "great", a click on star 4: a review rated 4 is posted at once and rating and comment are reset to 0 and '' | the click only sets the rating, as with `type="button"`, which the star rows of ReviewList.tsx:139 and reviews/ReviewForm.tsx:69 have | high; not executed | CourseReviews.ClickAsWritten | CourseReviews.Click |

=== FILE: course_reviews.dfy ===
/**
 * The self-contained review widget on the course page: a local list of reviews, the submit guard,
 * the static (full/half/empty) and interactive star rows, and the rating label.
 */
module CourseReviews {
  import opened Wrappers
  import Js

  /** A review of the widget's own list; ratings such as 4.5 are allowed. */
  datatype Review = Review(id: string, author: string, rating: real, date: string, comment: string)

  /** The widget's local state. */
  datatype Widget = Widget(reviews: seq<Review>, rating: int, comment: string, hovered: int)

  /**
   * `handleSubmitReview`, with `Date.now().toString()` as `now`: ignored while the rating is 0 or
   * the comment is blank; otherwise a review with the trimmed comment is put first, and rating and
   * comment are cleared.
   */
  function HandleSubmitReview(w: Widget, now: string): (r: Widget)
    ensures w.rating == 0 || Js.AllWhitespace(w.comment) ==> r == w
    ensures w.rating != 0 && !Js.AllWhitespace(w.comment) ==>
      && |r.reviews| == |w.reviews| + 1
      && r.reviews[0] == Review(now, "You", w.rating as real, "Just now", Js.Trim(w.comment))
      && r.reviews[0].comment != ""
      && r.reviews[1..] == w.reviews
      && r.rating == 0 && r.comment == "" && r.hovered == w.hovered
  {
    if w.rating == 0 || Js.Trim(w.comment) == "" then w
    else
      var review := Review(now, "You", w.rating as real, "Just now", Js.Trim(w.comment));
      Widget([review] + w.reviews, 0, "", w.hovered)
  }

  /** A second submit right after an accepted one is ignored: the rating has been reset to 0. */
  lemma SubmitTwice(w: Widget, now: string, later: string)
    ensures var once := HandleSubmitReview(w, now); HandleSubmitReview(once, later) == once
  {
  }

  // ---------------------------------------------------------------------------
  // Stars
  // ---------------------------------------------------------------------------

  datatype StarKind = Full | Half | Empty {
    /** Full > Half > Empty. */
    function Weight(): nat {
      match this
      case Full => 2
      case Half => 1
      case Empty => 0
    }
  }

  /** `value % 1 !== 0`. */
  predicate IsFractional(v: real) {
    v != v.Floor as real
  }

  /** `Math.ceil`. */
  function Ceil(v: real): (c: int)
    ensures c as real >= v && (c - 1) as real < v
  {
    if IsFractional(v) then v.Floor + 1 else v.Floor
  }

  /**
   * The read-only star row for `value`: star k + 1 (k = 0..4) is full when k + 1 <= floor(value),
   * half when k + 1 is ceil(value) and the value is fractional, empty otherwise.
   */
  function StaticStars(value: real): (stars: seq<StarKind>)
    ensures |stars| == 5
    ensures forall k :: 0 <= k < 5 ==> (stars[k] == Full <==> k + 1 <= value.Floor)
    ensures forall k :: 0 <= k < 5 ==> (stars[k] == Half <==> k + 1 == Ceil(value) && IsFractional(value))
  {
    seq(5, k requires 0 <= k < 5 =>
      var i := k + 1;
      if i <= value.Floor then Full
      else if i == Ceil(value) && IsFractional(value) then Half
      else Empty)
  }

  /**
   * The row reads full stars, then at most one half star, then empty stars; a fractional rating
   * strictly between 0 and 5 shows its half star right after its full ones.
   */
  lemma StaticStarsShape(value: real)
    ensures var s := StaticStars(value);
      && (forall i, j :: 0 <= i < j < 5 ==> s[i].Weight() >= s[j].Weight())
      && (forall i, j :: 0 <= i < j < 5 ==> !(s[i] == Half && s[j] == Half))
      && (IsFractional(value) && 0.0 < value < 5.0 ==> s[value.Floor] == Half)
      && (!IsFractional(value) ==> forall i :: 0 <= i < 5 ==> s[i] != Half)
  {
    var s := StaticStars(value);
    forall i, j | 0 <= i < j < 5
      ensures s[i].Weight() >= s[j].Weight()
    {
      if s[j] == Full {
        assert s[i] == Full;
      } else if s[j] == Half {
        assert j + 1 == Ceil(value) && IsFractional(value);
        assert i + 1 <= value.Floor;
      }
    }
    if IsFractional(value) && 0.0 < value < 5.0 {
      assert 0 <= value.Floor < 5;
      assert Ceil(value) == value.Floor + 1;
    }
  }

  /** The interactive row: star k + 1 is lit iff k + 1 <= (hovered || rating). */
  function InteractiveStars(w: Widget): (lit: seq<bool>)
    ensures |lit| == 5
    ensures forall k :: 0 <= k < 5 ==> (lit[k] <==> k + 1 <= Js.OrElse(w.hovered, w.rating))
  {
    seq(5, k requires 0 <= k < 5 => k + 1 <= Js.OrElse(w.hovered, w.rating))
  }

  /** Hovering star i lights exactly stars 1..i, whatever the rating. */
  lemma HoverLightsPrefix(w: Widget, i: int)
    requires 1 <= i <= 5
    ensures var lit := InteractiveStars(w.(hovered := i));
      forall k :: 0 <= k < 5 ==> (lit[k] <==> k + 1 <= i)
  {
  }

  /** Pointing at star i previews it; nothing else changes. */
  function MouseEnter(w: Widget, i: int): (r: Widget)
    ensures r.hovered == i
    ensures r.reviews == w.reviews && r.rating == w.rating && r.comment == w.comment
  {
    w.(hovered := i)
  }

  /** Leaving the stars clears the preview; nothing else changes. */
  function MouseLeave(w: Widget): (r: Widget)
    ensures r.hovered == 0
    ensures r.reviews == w.reviews && r.rating == w.rating && r.comment == w.comment
  {
    w.(hovered := 0)
  }

  /**
   * Clicking star i as intended, as if the star were a `type="button"` (the star rows of the other
   * review panels are): the rating is set and nothing else changes.
   */
  function Click(w: Widget, i: int): (r: Widget)
    ensures r.rating == i
    ensures r.reviews == w.reviews && r.hovered == w.hovered && r.comment == w.comment
  {
    w.(rating := i)
  }

  /** Leaving the stars after clicking star i shows exactly the rating i. */
  lemma ClickThenLeave(w: Widget, i: int)
    requires 1 <= i <= 5
    ensures var lit := InteractiveStars(MouseLeave(Click(w, i)));
      forall k :: 0 <= k < 5 ==> (lit[k] <==> k + 1 <= i)
  {
  }

  /**
   * Clicking star i as written. The star `<button>`s carry no `type`, so inside the review form
   * each is a submit button: after `setRating(i)` the click submits the form. The browser's
   * `required` check stops that submit on an empty comment; a blank but non-empty comment reaches
   * `handleSubmitReview`, which ignores it. `now` is the submit's `Date.now().toString()`.
   */
  function ClickAsWritten(w: Widget, i: int, now: string): (r: Widget)
    ensures i == 0 || Js.AllWhitespace(w.comment) ==> r == Click(w, i)
    ensures i != 0 && !Js.AllWhitespace(w.comment) ==>
      && |r.reviews| == |w.reviews| + 1
      && r.reviews[0].rating == i as real
      && r.reviews[1..] == w.reviews
      && r.rating == 0 && r.comment == ""
    ensures i != 0 && !Js.AllWhitespace(w.comment) ==> r == HandleSubmitReview(Click(w, i), now)
  {
    var clicked := Click(w, i);
    if clicked.comment == "" then clicked else HandleSubmitReview(clicked, now)
  }

  /**
   * With a comment typed, a star click posts a review at once and wipes the form: after leaving
   * the stars none is lit, where the intended click would light stars 1..i.
   */
  lemma ClickSubmitsReview(w: Widget, i: int, now: string)
    requires 1 <= i <= 5 && !Js.AllWhitespace(w.comment)
    ensures ClickAsWritten(w, i, now) != Click(w, i)
    ensures var lit := InteractiveStars(MouseLeave(ClickAsWritten(w, i, now)));
      forall k :: 0 <= k < 5 ==> !lit[k]
  {
    assert Click(w, i).rating == i;
  }

  /** An example: rating 3, comment "great", a click on star 4. */
  lemma ClickSubmitsExample()
    ensures var w := Widget([], 3, "great", 4);
      var r := ClickAsWritten(w, 4, "1");
      && r.reviews == [Review("1", "You", 4.0, "Just now", "great")]
      && r.rating == 0 && r.comment == ""
      && Click(w, 4).rating == 4 && Click(w, 4).reviews == []
  {
    var w := Widget([], 3, "great", 4);
    assert !Js.IsWhitespace(w.comment[0]);
    assert Js.Trim(w.comment) == "great";
  }

  /** The label beside the interactive row, shown only for a positive rating. */
  function RatingLabel(rating: int): (shown: Option<string>)
    ensures shown.Some? <==> rating > 0
    ensures rating == 5 ==> shown == Some("Excellent!")
    ensures rating == 4 ==> shown == Some("Very Good")
    ensures rating == 3 ==> shown == Some("Good")
    ensures rating == 2 ==> shown == Some("Fair")
    ensures rating > 0 && rating !in {2, 3, 4, 5} ==> shown == Some("Poor")
  {
    if rating <= 0 then None
    else if rating == 5 then Some("Excellent!")
    else if rating == 4 then Some("Very Good")
    else if rating == 3 then Some("Good")
    else if rating == 2 then Some("Fair")
    else Some("Poor")
  }
}

=== FILE: course_store.dfy ===
/** The current-course store: which course is open and the completion state of its lessons. */
module CourseStore {
  import opened Wrappers

  datatype Lesson = Lesson(id: string, title: string, duration: string, videoUrl: string, completed: bool)

  datatype Course = Course(
    id: string,
    title: string,
    author: string,
    thumbnail: string,
    description: string,
    lessons: seq<Lesson>,
    enrolled: bool,
    progress: int)

  datatype State = State(currentCourse: Option<Course>)

  /** The progress computation divides by the lesson count, so an open course needs a lesson. */
  predicate HasLessons(s: State) {
    s.currentCourse.Some? ==> |s.currentCourse.value.lessons| > 0
  }

  /** `setCurrentCourse`: the open course becomes exactly `c`, whatever was open before. */
  function SetCurrentCourse(s: State, c: Course): (r: State)
    ensures r.currentCourse == Some(c)
  {
    State(Some(c))
  }

  /** The number of completed lessons: none exactly when no lesson is done, all when every one is. */
  function CountCompleted(ls: seq<Lesson>): (n: nat)
    ensures n <= |ls|
    ensures n == 0 <==> forall i :: 0 <= i < |ls| ==> !ls[i].completed
    ensures n == |ls| <==> forall i :: 0 <= i < |ls| ==> ls[i].completed
  {
    if |ls| == 0 then 0
    else
      var rest := CountCompleted(ls[1..]);
      assert forall i :: 1 <= i < |ls| ==> ls[i] == ls[1..][i - 1];
      (if ls[0].completed then 1 else 0) + rest
  }

  /** `p` is 100·done/total rounded half up: p − ½ ≤ 100·done/total < p + ½. */
  predicate IsRoundedPercent(p: int, done: nat, total: nat) {
    2 * p * total <= 200 * done + total < 2 * p * total + 2 * total
  }

  /**
   * `Math.round(done / total * 100)` in exact arithmetic: the round-half-up percentage, always
   * within [0, 100], 0 for nothing done and 100 for everything done.
   */
  function RoundPercent(done: nat, total: nat): (p: int)
    requires 0 < total && done <= total
    ensures IsRoundedPercent(p, done, total)
    ensures 0 <= p <= 100
    ensures done == 0 ==> p == 0
    ensures done == total ==> p == 100
  {
    var n := 200 * done + total;
    var d := 2 * total;
    var p := n / d;
    DivisionBounds(n, d);
    assert 2 * p * total == d * p;
    assert p <= 100 by {
      if p > 100 {
        MultiplyMonotone(101, p, d);
        assert false;
      }
    }
    assert done == total ==> p == 100 by {
      if done == total {
        assert n == d * 100 + total;
        DivisionOfSum(100, total, d);
      }
    }
    assert done == 0 ==> p == 0 by {
      if done == 0 {
        DivisionOfSum(0, total, d);
      }
    }
    p
  }

  lemma DivisionBounds(n: nat, d: nat)
    requires d > 0
    ensures d * (n / d) <= n < d * (n / d) + d
    ensures n / d >= 0
  {
  }

  lemma MultiplyMonotone(a: int, b: int, c: nat)
    requires a <= b
    ensures a * c <= b * c && c * a <= c * b
  {
  }

  lemma DivisionOfSum(q: nat, r: nat, d: nat)
    requires r < d
    ensures (d * q + r) / d == q
  {
    var n := d * q + r;
    var k := n / d;
    DivisionBounds(n, d);
    if k < q {
      MultiplyMonotone(k + 1, q, d);
      assert false;
    } else if q < k {
      MultiplyMonotone(q + 1, k, d);
      assert false;
    }
  }

  /** Rounding is a function: at most one integer is the rounded percentage. */
  lemma {:induction false} RoundedPercentUnique(p: int, q: int, done: nat, total: nat)
    requires 0 < total
    requires IsRoundedPercent(p, done, total) && IsRoundedPercent(q, done, total)
    ensures p == q
  {
    if p < q {
      MultiplyMonotone(p + 1, q, 2 * total);
      assert false;
    } else if q < p {
      MultiplyMonotone(q + 1, p, 2 * total);
      assert false;
    }
  }

  /** The lessons with completion flipped on exactly those whose id is `lessonId`. */
  function FlipLesson(ls: seq<Lesson>, lessonId: string): (r: seq<Lesson>)
    ensures |r| == |ls|
    ensures forall i :: 0 <= i < |ls| ==>
      r[i] == if ls[i].id == lessonId then ls[i].(completed := !ls[i].completed) else ls[i]
  {
    if |ls| == 0 then []
    else
      [if ls[0].id == lessonId then ls[0].(completed := !ls[0].completed) else ls[0]]
      + FlipLesson(ls[1..], lessonId)
  }

  /** Flipping the same lesson twice gives back the original list. */
  lemma FlipTwice(ls: seq<Lesson>, lessonId: string)
    ensures FlipLesson(FlipLesson(ls, lessonId), lessonId) == ls
  {
    var r := FlipLesson(FlipLesson(ls, lessonId), lessonId);
    assert forall i :: 0 <= i < |ls| ==> r[i] == ls[i];
  }

  /**
   * `toggleLessonComplete`: without an open course nothing happens; otherwise the matching lessons
   * flip, every other course field is kept, and `progress` becomes the rounded share of completed
   * lessons in the new list.
   */
  function ToggleLessonComplete(s: State, lessonId: string): (r: State)
    requires HasLessons(s)
    ensures s.currentCourse.None? ==> r == s
    ensures s.currentCourse.Some? ==>
      var c := s.currentCourse.value;
      && r.currentCourse.Some?
      && var c' := r.currentCourse.value;
      && c'.lessons == FlipLesson(c.lessons, lessonId)
      && IsRoundedPercent(c'.progress, CountCompleted(c'.lessons), |c'.lessons|)
      && 0 <= c'.progress <= 100
      && c'.id == c.id && c'.title == c.title && c'.author == c.author && c'.thumbnail == c.thumbnail
      && c'.description == c.description && c'.enrolled == c.enrolled
    ensures HasLessons(r)
  {
    match s.currentCourse
    case None => s
    case Some(c) =>
      var lessons := FlipLesson(c.lessons, lessonId);
      State(Some(c.(lessons := lessons, progress := RoundPercent(CountCompleted(lessons), |lessons|))))
  }

  /** With no lesson left completed the progress is 0; with every lesson completed it is 100. */
  lemma ToggleProgressExtremes(s: State, lessonId: string)
    requires HasLessons(s) && s.currentCourse.Some?
    ensures var c' := ToggleLessonComplete(s, lessonId).currentCourse.value;
      && ((forall i :: 0 <= i < |c'.lessons| ==> !c'.lessons[i].completed) ==> c'.progress == 0)
      && ((forall i :: 0 <= i < |c'.lessons| ==> c'.lessons[i].completed) ==> c'.progress == 100)
  {
  }

  /**
   * The extremes hold in one direction only: with 201 lessons, one completed lesson still rounds
   * to 0% and 200 of them already round to 100%.
   */
  lemma ExtremesNotConverse()
    ensures RoundPercent(1, 201) == 0
    ensures RoundPercent(200, 201) == 100
  {
  }

  /**
   * Toggling the same lesson twice restores the lesson list, and the progress then agrees with
   * the original lessons.
   */
  lemma ToggleTwice(s: State, lessonId: string)
    requires HasLessons(s) && s.currentCourse.Some?
    ensures var c := s.currentCourse.value;
      var c'' := ToggleLessonComplete(ToggleLessonComplete(s, lessonId), lessonId).currentCourse.value;
      && c''.lessons == c.lessons
      && c''.progress == RoundPercent(CountCompleted(c.lessons), |c.lessons|)
  {
    FlipTwice(s.currentCourse.value.lessons, lessonId);
  }
}

=== FILE: js.dfy ===
/**
 * The few JavaScript semantics the application logic leans on: `String.prototype.trim`,
 * truthiness of optional strings, plain objects as ordered key/value lists (object spread,
 * `Object.entries`) and the `toString` of a field value.
 */
module Js {
  import opened Wrappers

  // ---------------------------------------------------------------------------
  // Strings
  // ---------------------------------------------------------------------------

  /** The WhiteSpace and LineTerminator code points of ECMAScript, which `trim` strips. */
  predicate IsWhitespace(c: char) {
    || c == '\t' || c == '\n' || c == '\U{B}' || c == '\U{C}' || c == '\r' || c == ' '
    || c == '\U{A0}' || c == '\U{1680}' || ('\U{2000}' <= c <= '\U{200A}')
    || c == '\U{2028}' || c == '\U{2029}' || c == '\U{202F}' || c == '\U{205F}'
    || c == '\U{3000}' || c == '\U{FEFF}'
  }

  predicate AllWhitespace(s: string) {
    forall i :: 0 <= i < |s| ==> IsWhitespace(s[i])
  }

  /** `s` with its leading whitespace removed: a suffix of `s` that starts with a non-blank. */
  function TrimStart(s: string): (r: string)
    ensures |r| <= |s| && r == s[|s| - |r|..]
    ensures forall i :: 0 <= i < |s| - |r| ==> IsWhitespace(s[i])
    ensures r == [] || !IsWhitespace(r[0])
  {
    if |s| > 0 && IsWhitespace(s[0]) then TrimStart(s[1..]) else s
  }

  /** `s` with its trailing whitespace removed: a prefix of `s` that ends with a non-blank. */
  function TrimEnd(s: string): (r: string)
    ensures |r| <= |s| && r == s[..|r|]
    ensures forall i :: |r| <= i < |s| ==> IsWhitespace(s[i])
    ensures r == [] || !IsWhitespace(r[|r| - 1])
  {
    if |s| > 0 && IsWhitespace(s[|s| - 1]) then TrimEnd(s[..|s| - 1]) else s
  }

  /** `String.prototype.trim`: the blank-free core of `s`; empty exactly when `s` is all blanks. */
  function Trim(s: string): (r: string)
    ensures r == [] || (!IsWhitespace(r[0]) && !IsWhitespace(r[|r| - 1]))
    ensures r == [] <==> AllWhitespace(s)
    ensures |r| <= |s|
    ensures exists i, j :: 0 <= i <= j <= |s| && r == s[i..j] && AllWhitespace(s[..i]) && AllWhitespace(s[j..])
  {
    var t := TrimStart(s);
    TrimCore(s, t, TrimEnd(t));
    TrimEnd(t)
  }

  /**
   * Where the core of `s` sits: between a blank prefix and a blank suffix. Stated over what
   * `TrimStart` and `TrimEnd` promise, `t` being the trimmed start and `r` its trimmed end.
   */
  lemma TrimCore(s: string, t: string, r: string)
    requires |t| <= |s| && t == s[|s| - |t|..]
    requires forall k :: 0 <= k < |s| - |t| ==> IsWhitespace(s[k])
    requires t == [] || !IsWhitespace(t[0])
    requires |r| <= |t| && r == t[..|r|]
    requires forall k :: |r| <= k < |t| ==> IsWhitespace(t[k])
    ensures exists i, j :: 0 <= i <= j <= |s| && r == s[i..j] && AllWhitespace(s[..i]) && AllWhitespace(s[j..])
    ensures r == [] <==> AllWhitespace(s)
  {
    var i := |s| - |t|;
    var j := i + |r|;
    assert r == s[i..j] by {
      forall k | 0 <= k < |r| ensures r[k] == s[i..j][k] {
        assert r[k] == t[k] == s[i + k];
      }
    }
    BlankPrefix(s, i);
    BlankSuffix(s, t, r, j);
    if r == [] {
      assert t == [];
      assert forall k :: 0 <= k < |s| ==> IsWhitespace(s[k]);
    } else {
      assert r[0] == t[0] == s[i];
    }
  }

  lemma BlankPrefix(s: string, i: nat)
    requires i <= |s| && forall k :: 0 <= k < i ==> IsWhitespace(s[k])
    ensures AllWhitespace(s[..i])
  {
    forall k | 0 <= k < i ensures IsWhitespace(s[..i][k]) {
      assert s[..i][k] == s[k];
    }
  }

  lemma BlankSuffix(s: string, t: string, r: string, j: nat)
    requires |r| <= |t| <= |s| && t == s[|s| - |t|..] && r == t[..|r|] && j == |s| - |t| + |r|
    requires forall k :: |r| <= k < |t| ==> IsWhitespace(t[k])
    ensures AllWhitespace(s[j..])
  {
    forall k | 0 <= k < |s| - j ensures IsWhitespace(s[j..][k]) {
      assert s[j..][k] == t[|r| + k];
    }
  }

  /** Trimming keeps nothing to trim: `trim` is idempotent. */
  lemma {:induction false} TrimIdempotent(s: string)
    ensures Trim(Trim(s)) == Trim(s)
  {
    var r := Trim(s);
    if r != [] {
      assert TrimStart(r) == r;
      assert TrimEnd(r) == r;
    } else {
      assert TrimStart(r) == [];
    }
  }

  /** JavaScript truthiness of an optional string field: present and not the empty string. */
  predicate Present(o: Option<string>) {
    o.Some? && o.value != ""
  }

  /** `a || b` on numbers: `a` unless it is 0, which is falsy. */
  function OrElse(a: int, b: int): (r: int)
    ensures a != 0 ==> r == a
    ensures a == 0 ==> r == b
  {
    if a != 0 then a else b
  }

  // ---------------------------------------------------------------------------
  // Plain objects
  // ---------------------------------------------------------------------------

  /** A plain object's own string-keyed properties, in insertion order. */
  type Entries<V> = seq<(string, V)>

  function Keys<V>(o: Entries<V>): (ks: seq<string>)
    ensures |ks| == |o|
    ensures forall i {:trigger ks[i]} :: 0 <= i < |o| ==> ks[i] == o[i].0
  {
    seq(|o|, i requires 0 <= i < |o| => o[i].0)
  }

  lemma KeysAppend<V>(a: Entries<V>, b: Entries<V>)
    ensures Keys(a + b) == Keys(a) + Keys(b)
  {
  }

  /** Appending a new key leaves older lookups alone and makes the new one find its value. */
  lemma {:induction false} GetAppend<V>(o: Entries<V>, k: string, v: V, k': string)
    requires k !in Keys(o)
    ensures Get(o + [(k, v)], k') == if k' == k then Some(v) else Get(o, k')
  {
    if |o| > 0 {
      KeysCons(o);
      assert (o + [(k, v)])[1..] == o[1..] + [(k, v)];
      GetAppend(o[1..], k, v, k');
    }
  }

  /** Every key occurs once, as in a JavaScript object. */
  predicate Distinct<V>(o: Entries<V>) {
    forall i, j :: 0 <= i < j < |o| ==> o[i].0 != o[j].0
  }

  /** Property lookup, `o[k]`; `None` is `undefined` for a missing key. */
  function Get<V>(o: Entries<V>, k: string): (r: Option<V>)
    ensures r.None? <==> k !in Keys(o)
  {
    if |o| == 0 then None
    else if o[0].0 == k then
      assert Keys(o)[0] == k;
      Some(o[0].1)
    else
      KeysCons(o);
      Get(o[1..], k)
  }

  lemma KeysCons<V>(o: Entries<V>)
    requires |o| > 0
    ensures Keys(o) == [o[0].0] + Keys(o[1..])
  {
  }

  /** Dropping the first entry of an object with distinct keys: the rest is distinct and lacks that key. */
  lemma DistinctTail<V>(o: Entries<V>)
    requires Distinct(o) && |o| > 0
    ensures Distinct(o[1..]) && o[0].0 !in Keys(o[1..])
  {
    var q := o[1..];
    forall j | 0 <= j < |q| ensures Keys(q)[j] != o[0].0 {
      assert q[j] == o[j + 1];
    }
  }

  lemma GetDistinct<V>(o: Entries<V>, i: nat)
    requires Distinct(o) && i < |o|
    ensures Get(o, o[i].0) == Some(o[i].1)
  {
    if i > 0 {
      GetDistinct(o[1..], i - 1);
    }
  }

  /**
   * `{ ...o, [k]: v }`: an existing key keeps its position and takes the new value; a new
   * key is added at the end.
   */
  function Set<V>(o: Entries<V>, k: string, v: V): (r: Entries<V>)
    ensures Get(r, k) == Some(v)
    ensures forall k' :: k' != k ==> Get(r, k') == Get(o, k')
    ensures k in Keys(o) ==> Keys(r) == Keys(o)
    ensures k !in Keys(o) ==> r == o + [(k, v)]
  {
    if |o| == 0 then [(k, v)]
    else if o[0].0 == k then
      SetFront(o, v);
      [(k, v)] + o[1..]
    else
      var t := Set(o[1..], k, v);
      KeysCons(o);
      ConsGet(o[0], t, k);
      ConsGetOthers(o, k, t);
      if k in Keys(o) then
        ConsKeys(o, t);
        [o[0]] + t
      else
        AppendAfterFirst(o, (k, v), t);
        [o[0]] + t
  }

  /** A new entry appended to the tail is appended to the whole list. */
  lemma AppendAfterFirst<T>(o: seq<T>, e: T, t: seq<T>)
    requires |o| > 0 && t == o[1..] + [e]
    ensures [o[0]] + t == o + [e]
  {
    assert [o[0]] + o[1..] == o;
  }

  /** Overwriting the first entry's value: its lookup changes, its position and the rest do not. */
  lemma SetFront<V>(o: Entries<V>, v: V)
    requires |o| > 0
    ensures Get([(o[0].0, v)] + o[1..], o[0].0) == Some(v)
    ensures forall k' :: k' != o[0].0 ==> Get([(o[0].0, v)] + o[1..], k') == Get(o, k')
    ensures Keys([(o[0].0, v)] + o[1..]) == Keys(o)
  {
    var r := [(o[0].0, v)] + o[1..];
    assert r[1..] == o[1..];
    KeysCons(o);
    KeysCons(r);
  }

  /** Putting back a first entry with another key keeps every other lookup as it was in `o`. */
  lemma ConsGetOthers<V>(o: Entries<V>, k: string, t: Entries<V>)
    requires |o| > 0 && o[0].0 != k
    requires forall k' :: k' != k ==> Get(t, k') == Get(o[1..], k')
    ensures forall k' :: k' != k ==> Get([o[0]] + t, k') == Get(o, k')
  {
    forall k' | k' != k ensures Get([o[0]] + t, k') == Get(o, k') {
      ConsGet(o[0], t, k');
    }
  }

  /** Looking up past a first entry with another key. */
  lemma ConsGet<V>(e: (string, V), t: Entries<V>, k: string)
    ensures Get([e] + t, k) == if e.0 == k then Some(e.1) else Get(t, k)
  {
    assert ([e] + t)[1..] == t;
  }

  lemma ConsKeys<V>(o: Entries<V>, t: Entries<V>)
    requires |o| > 0 && Keys(t) == Keys(o[1..])
    ensures Keys([o[0]] + t) == Keys(o)
  {
    KeysCons(o);
    KeysAppend([o[0]], t);
  }

  /** Setting a property never duplicates a key. */
  lemma SetDistinct<V>(o: Entries<V>, k: string, v: V)
    requires Distinct(o)
    ensures Distinct(Set(o, k, v))
  {
    var r := Set(o, k, v);
    if k in Keys(o) {
      forall i, j | 0 <= i < j < |r| ensures r[i].0 != r[j].0 {
        assert r[i].0 == Keys(r)[i] == Keys(o)[i] == o[i].0;
        assert r[j].0 == Keys(r)[j] == Keys(o)[j] == o[j].0;
      }
    } else {
      forall i, j | 0 <= i < j < |r| ensures r[i].0 != r[j].0 {
        if j == |o| {
          assert r[i].0 == Keys(o)[i];
        }
      }
    }
  }

  /** Setting the same property to the same value twice is setting it once. */
  lemma {:induction false} SetTwice<V>(o: Entries<V>, k: string, v: V)
    ensures Set(Set(o, k, v), k, v) == Set(o, k, v)
  {
    if |o| > 0 && o[0].0 != k {
      SetTwice(o[1..], k, v);
      var t := Set(o[1..], k, v);
      assert Set(o, k, v) == [o[0]] + t;
      assert ([o[0]] + t)[1..] == t;
    }
  }

  /** Writing back a value a key already holds changes nothing. */
  lemma {:induction false} SetExisting<V>(o: Entries<V>, k: string, v: V)
    requires Distinct(o) && Get(o, k) == Some(v)
    ensures Set(o, k, v) == o
  {
    if o[0].0 != k {
      assert Distinct(o[1..]);
      SetExisting(o[1..], k, v);
    }
  }

  /** `{ ...o, ...p }`: the properties of `p` written over those of `o`, in `p`'s order. */
  function Merge<V>(o: Entries<V>, p: Entries<V>): (r: Entries<V>)
    requires Distinct(p)
    ensures forall k :: Get(r, k) == (if k in Keys(p) then Get(p, k) else Get(o, k))
    ensures Distinct(o) ==> Distinct(r)
    decreases |p|
  {
    if |p| == 0 then o
    else
      var q := p[1..];
      assert Distinct(q);
      assert Keys(p) == [p[0].0] + Keys(q);
      assert p[0].0 !in Keys(q) by {
        forall j | 0 <= j < |q| ensures Keys(q)[j] != p[0].0 {
          assert q[j] == p[j + 1];
        }
      }
      if Distinct(o) then
        SetDistinct(o, p[0].0, p[0].1);
        Merge(Set(o, p[0].0, p[0].1), q)
      else
        Merge(Set(o, p[0].0, p[0].1), q)
  }

  /** Merging an object whose properties already hold changes nothing. */
  lemma {:induction false} MergeAbsorbed<V>(o: Entries<V>, p: Entries<V>)
    requires Distinct(o) && Distinct(p)
    requires forall k :: k in Keys(p) ==> Get(o, k) == Get(p, k)
    ensures Merge(o, p) == o
    decreases |p|
  {
    if |p| > 0 {
      var q := p[1..];
      assert Distinct(q);
      GetDistinct(p, 0);
      SetExisting(o, p[0].0, p[0].1);
      TailAbsorbed(o, p);
      MergeAbsorbed(o, q);
    }
  }

  /** What holds in `o` for every key of `p` still holds for every key after the first. */
  lemma TailAbsorbed<V>(o: Entries<V>, p: Entries<V>)
    requires |p| > 0 && Distinct(p)
    requires forall k :: k in Keys(p) ==> Get(o, k) == Get(p, k)
    ensures forall k :: k in Keys(p[1..]) ==> Get(o, k) == Get(p[1..], k)
  {
    var q := p[1..];
    forall k | k in Keys(q) ensures Get(o, k) == Get(q, k) {
      var j :| 0 <= j < |q| && Keys(q)[j] == k;
      assert q[j] == p[j + 1];
      assert Distinct(q);
      GetDistinct(q, j);
      GetDistinct(p, j + 1);
    }
  }

  /** Spreading the same properties twice is spreading them once. */
  lemma MergeIdempotent<V>(o: Entries<V>, p: Entries<V>)
    requires Distinct(o) && Distinct(p)
    ensures Merge(Merge(o, p), p) == Merge(o, p)
  {
    MergeAbsorbed(Merge(o, p), p);
  }

  // ---------------------------------------------------------------------------
  // Values
  // ---------------------------------------------------------------------------

  /** The values a form field or profile property can hold. Arrays are not modelled. */
  datatype JsValue =
    | Undefined
    | Null
    | Bool(b: bool)
    | Num(n: int)
    | Str(s: string)
    | Obj(fields: seq<(string, JsValue)>)

  /** `{ ...v }` as a source of properties: an object's own properties, nothing otherwise. */
  function SpreadOf(v: Option<JsValue>): (r: Entries<JsValue>)
    ensures v == Some(Obj(r)) || r == []
  {
    if v.Some? && v.value.Obj? then v.value.fields else []
  }

  /** JavaScript truthiness. */
  predicate Truthy(v: JsValue) {
    match v
    case Undefined => false
    case Null => false
    case Bool(b) => b
    case Num(n) => n != 0
    case Str(s) => s != ""
    case Obj(_) => true
  }

  function DigitChar(d: nat): (c: char)
    requires d < 10
    ensures '0' <= c <= '9' && c as int - '0' as int == d
  {
    "0123456789"[d]
  }

  /** The decimal digits of `n`, most significant first, with no leading zero. */
  function NatToString(n: nat): (s: string)
    ensures |s| > 0 && forall i :: 0 <= i < |s| ==> '0' <= s[i] <= '9'
    ensures |s| > 1 ==> s[0] != '0'
  {
    if n < 10 then [DigitChar(n)] else NatToString(n / 10) + [DigitChar(n % 10)]
  }

  /** The number a string of decimal digits denotes, read most significant digit first. */
  function DigitsValue(s: string): nat
    requires forall i :: 0 <= i < |s| ==> '0' <= s[i] <= '9'
  {
    if s == [] then 0 else DigitsValue(s[..|s| - 1]) * 10 + (s[|s| - 1] as int - '0' as int)
  }

  /** Reading back the digits NatToString writes gives the number again. */
  lemma {:induction false} NatToStringValue(n: nat)
    ensures DigitsValue(NatToString(n)) == n
  {
    if n >= 10 {
      var s := NatToString(n);
      assert s[..|s| - 1] == NatToString(n / 10);
      NatToStringValue(n / 10);
    }
  }

  /** `value.toString()` for the value kinds a settings form holds. */
  function ToString(v: JsValue): (r: string)
    ensures v.Str? ==> r == v.s
    ensures v.Num? ==> |r| > 0 && (r[0] == '-' <==> v.n < 0)
    ensures v.Num? && v.n >= 0 ==> r == NatToString(v.n)
    ensures v.Num? && v.n < 0 ==> r[1..] == NatToString(-v.n)
    ensures v.Bool? ==> r == (if v.b then "true" else "false")
    ensures v.Obj? ==> r == "[object Object]"
  {
    match v
    case Undefined => "undefined"
    case Null => "null"
    case Bool(b) => if b then "true" else "false"
    case Num(n) => if n < 0 then "-" + NatToString(-n) else NatToString(n)
    case Str(s) => s
    case Obj(_) => "[object Object]"
  }
}

=== FILE: lesson_notes.dfy ===
/**
 * The lesson-notes panel: the cached notes of each lesson, the edit state of the panel, the
 * mutations its handlers issue, and the cache rewrites applied once a mutation has succeeded.
 * The cache is written only on success; a failed mutation leaves it as it was, and no snapshot
 * is ever taken.
 */
module LessonNotes {
  import opened Wrappers
  import Js
  import Lists
  import PocketBase

  datatype LessonNote = LessonNote(id: string, lesson: string, user: string, content: string, created: string, updated: string)

  function NoteId(n: LessonNote): string { n.id }

  /** The query cache's `['lessonNotes', lessonId]` entries, by lesson id. */
  type NotesCache = map<string, seq<LessonNote>>

  /** The updater's `old = []` default: a lesson with no entry reads as an empty list. */
  function Cached(cache: NotesCache, lessonId: string): (ns: seq<LessonNote>)
    ensures lessonId !in cache ==> ns == []
    ensures lessonId in cache ==> ns == cache[lessonId]
  {
    if lessonId in cache then cache[lessonId] else []
  }

  ghost predicate OtherLessonsUnchanged(cache: NotesCache, r: NotesCache, lessonId: string) {
    && r.Keys == cache.Keys + {lessonId}
    && forall l :: l in cache && l != lessonId ==> r[l] == cache[l]
  }

  /** Create `onSuccess`: the server's note goes first, the cached notes follow in order. */
  function CreatedInCache(cache: NotesCache, lessonId: string, note: LessonNote): (r: NotesCache)
    ensures OtherLessonsUnchanged(cache, r, lessonId)
    ensures |r[lessonId]| == |Cached(cache, lessonId)| + 1
    ensures r[lessonId][0] == note && r[lessonId][1..] == Cached(cache, lessonId)
  {
    cache[lessonId := [note] + Cached(cache, lessonId)]
  }

  /** Update `onSuccess`: notes with the returned id are replaced in place; nothing else moves. */
  function UpdatedInCache(cache: NotesCache, lessonId: string, note: LessonNote): (r: NotesCache)
    ensures OtherLessonsUnchanged(cache, r, lessonId)
    ensures var before := Cached(cache, lessonId);
      && |r[lessonId]| == |before|
      && forall i :: 0 <= i < |before| ==> r[lessonId][i] == if before[i].id == note.id then note else before[i]
  {
    cache[lessonId := Lists.ReplaceByKey(Cached(cache, lessonId), NoteId, note)]
  }

  /** Delete `onSuccess`: notes with the deleted id leave, the others keep their order. */
  function DeletedInCache(cache: NotesCache, lessonId: string, id: string): (r: NotesCache)
    ensures OtherLessonsUnchanged(cache, r, lessonId)
    ensures var before := Cached(cache, lessonId);
      && (forall i :: 0 <= i < |r[lessonId]| ==> r[lessonId][i] in before && r[lessonId][i].id != id)
      && (forall i :: 0 <= i < |before| && before[i].id != id ==> before[i] in r[lessonId])
    ensures Cached(r, lessonId) == Lists.RemoveByKey(Cached(cache, lessonId), NoteId, id)
  {
    cache[lessonId := Lists.RemoveByKey(Cached(cache, lessonId), NoteId, id)]
  }

  /** A deleted note stays deleted: deleting it again leaves the cache as it is. */
  lemma DeleteTwice(cache: NotesCache, lessonId: string, id: string)
    ensures DeletedInCache(DeletedInCache(cache, lessonId, id), lessonId, id) == DeletedInCache(cache, lessonId, id)
  {
    Lists.RemoveIdempotent(Cached(cache, lessonId), NoteId, id);
  }

  /** Deleting a note that was just created removes exactly it, when its id was new to the list. */
  lemma CreateThenDelete(cache: NotesCache, lessonId: string, note: LessonNote)
    requires forall i :: 0 <= i < |Cached(cache, lessonId)| ==> Cached(cache, lessonId)[i].id != note.id
    ensures DeletedInCache(CreatedInCache(cache, lessonId, note), lessonId, note.id)[lessonId] == Cached(cache, lessonId)
  {
    var before := Cached(cache, lessonId);
    Lists.RemoveAppend([note], before, NoteId, note.id);
    Lists.RemoveAbsent(before, NoteId, note.id);
    assert Lists.RemoveByKey([note], NoteId, note.id) == [];
  }

  // ---------------------------------------------------------------------------
  // Panel state and handlers
  // ---------------------------------------------------------------------------

  /** The panel's local state: the draft, the note being edited and its edit buffer. */
  datatype Panel = Panel(newNote: string, editingNote: Option<string>, editContent: string)

  datatype NoteMutation = CreateNote(content: string) | UpdateNote(id: string, content: string) | DeleteNote(id: string)

  /** `handleSubmit`: a create of the trimmed draft, issued only when the draft is not blank. */
  function HandleSubmit(p: Panel): (m: Option<NoteMutation>)
    ensures m.Some? <==> !Js.AllWhitespace(p.newNote)
    ensures m.Some? ==> m.value == CreateNote(Js.Trim(p.newNote)) && m.value.content != ""
  {
    var text := Js.Trim(p.newNote);
    if text != "" then Some(CreateNote(text)) else None
  }

  /** `startEditing`: the note becomes the one being edited, with its content in the buffer. */
  function StartEditing(p: Panel, note: LessonNote): (r: Panel)
    ensures r.editingNote == Some(note.id) && r.editContent == note.content && r.newNote == p.newNote
  {
    p.(editingNote := Some(note.id), editContent := note.content)
  }

  /** The Cancel button: editing stops; the buffer is left as it is. */
  function CancelEditing(p: Panel): (r: Panel)
    ensures r.editingNote.None? && r.editContent == p.editContent && r.newNote == p.newNote
  {
    p.(editingNote := None)
  }

  /**
   * `handleUpdate`: an update carrying the trimmed buffer when it differs from the note's content;
   * otherwise editing just closes and nothing is sent.
   */
  function HandleUpdate(p: Panel, note: LessonNote): (r: (Panel, Option<NoteMutation>))
    ensures r.1.Some? <==> Js.Trim(p.editContent) != note.content
    ensures r.1.Some? ==> r.1.value == UpdateNote(note.id, Js.Trim(p.editContent)) && r.0 == p
    ensures r.1.None? ==> r.0 == CancelEditing(p)
  {
    var text := Js.Trim(p.editContent);
    if text != note.content then (p, Some(UpdateNote(note.id, text))) else (p.(editingNote := None), None)
  }

  /** Editing a note and saving it untouched sends nothing, unless its content had blanks to trim. */
  lemma SaveUntouched(p: Panel, note: LessonNote)
    requires Js.Trim(note.content) == note.content
    ensures HandleUpdate(StartEditing(p, note), note).1.None?
  {
  }

  // ---------------------------------------------------------------------------
  // Settling a mutation
  // ---------------------------------------------------------------------------

  /** What the panel shows: the cache and its own state. */
  datatype View = View(cache: NotesCache, panel: Panel)

  /**
   * A create settles: on success the server's note is put first in the lesson's list; on failure
   * nothing changes, since there is no `onError` and no snapshot.
   */
  function SettleCreate(v: View, lessonId: string, reply: Result<LessonNote, PocketBase.Failure>): (r: View)
    ensures reply.Err? ==> r == v
    ensures reply.Ok? ==> r.cache == CreatedInCache(v.cache, lessonId, reply.value) && r.panel == v.panel
  {
    match reply
    case Err(_) => v
    case Ok(note) => v.(cache := CreatedInCache(v.cache, lessonId, note))
  }

  /** An update settles: on success the note is replaced and editing closes; on failure nothing changes. */
  function SettleUpdate(v: View, lessonId: string, reply: Result<LessonNote, PocketBase.Failure>): (r: View)
    ensures reply.Err? ==> r == v
    ensures reply.Ok? ==> r.cache == UpdatedInCache(v.cache, lessonId, reply.value) && r.panel == CancelEditing(v.panel)
  {
    match reply
    case Err(_) => v
    case Ok(note) => View(UpdatedInCache(v.cache, lessonId, note), v.panel.(editingNote := None))
  }

  /** A delete of `id` settles: on success that id leaves the list; on failure nothing changes. */
  function SettleDelete(v: View, lessonId: string, id: string, reply: Result<bool, PocketBase.Failure>): (r: View)
    ensures reply.Err? ==> r == v
    ensures reply.Ok? ==> r.cache == DeletedInCache(v.cache, lessonId, id) && r.panel == v.panel
  {
    match reply
    case Err(_) => v
    case Ok(_) => v.(cache := DeletedInCache(v.cache, lessonId, id))
  }

  /**
   * Submitting a draft end to end: `handleSubmit`, then `lessonNoteService.create` with the
   * session in `auth` and the server's answer `remote`, then the settlement. Without a user id in
   * the session nothing is sent and the view is unchanged.
   */
  function SubmitDraft(v: View, lessonId: string, auth: PocketBase.AuthStore,
                       remote: Result<LessonNote, PocketBase.Failure>): (r: View)
    ensures !Js.Present(PocketBase.ModelId(auth)) ==> r == v
    ensures Js.AllWhitespace(v.panel.newNote) ==> r == v
    ensures remote.Err? ==> r == v
    ensures Js.Present(PocketBase.ModelId(auth)) && !Js.AllWhitespace(v.panel.newNote) && remote.Ok? ==>
      r.cache == CreatedInCache(v.cache, lessonId, remote.value) && r.panel == v.panel
  {
    match HandleSubmit(v.panel)
    case None => v
    case Some(m) =>
      var plan := PocketBase.NoteCreate(auth, lessonId, m.content);
      SettleCreate(v, lessonId, PocketBase.Settle(plan, remote, PocketBase.HandlePocketbaseError))
  }

  // ---------------------------------------------------------------------------
  // Error message
  // ---------------------------------------------------------------------------

  const MsgNoPermission := "You don't have permission to perform this action. Please make sure you're logged in."
  const MsgUnexpected := "An unexpected error occurred"

  /** `getErrorMessage`. */
  function GetErrorMessage(e: PocketBase.Failure): (m: string)
    ensures e.ClientResponseError? && e.status == 403 ==> m == MsgNoPermission
    ensures e.ClientResponseError? && e.status != 403 ==> m == e.message
    ensures !e.ClientResponseError? ==> m == MsgUnexpected
  {
    match e
    case ClientResponseError(status, message) => if status == 403 then MsgNoPermission else message
    case _ => MsgUnexpected
  }

  /**
   * The message the panel shows when the notes query fails, as written: the query's error has
   * already been through `handlePocketbaseError`, so it is never an SDK error and the message is
   * always the generic one, even for a 403.
   */
  function QueryErrorMessage(e: PocketBase.Failure): (m: string)
    ensures m == MsgUnexpected
  {
    GetErrorMessage(PocketBase.HandlePocketbaseError(e))
  }

  /** A 403 from the notes query never produces the permission message the panel was written to show. */
  lemma PermissionMessageUnreachable(message: string)
    ensures QueryErrorMessage(PocketBase.ClientResponseError(403, message)) != MsgNoPermission
  {
  }

  /**
   * The message the panel evidently means to show: the SDK error classified as it comes from the
   * server, before the service's handler rewrites it.
   */
  function QueryErrorMessageIntended(e: PocketBase.Failure): (m: string)
    ensures e.ClientResponseError? && e.status == 403 ==> m == MsgNoPermission
    ensures e.ClientResponseError? && e.status != 403 ==> m == e.message
    ensures !e.ClientResponseError? ==> m == MsgUnexpected
  {
    if e.ClientResponseError? then GetErrorMessage(e) else GetErrorMessage(PocketBase.HandlePocketbaseError(e))
  }
}

=== FILE: lists.dfy ===
/**
 * The two list rewrites both caches and the review store apply: `list.map(x => id(x) === id(v) ? v : x)`
 * and `list.filter(x => id(x) !== k)`, generic in the record type and its id accessor.
 */
module Lists {

  /** Every element whose key equals `v`'s key becomes `v`; the rest stay where they are. */
  function ReplaceByKey<T>(s: seq<T>, key: T -> string, v: T): (r: seq<T>)
    ensures |r| == |s|
    ensures forall i :: 0 <= i < |s| ==> r[i] == (if key(s[i]) == key(v) then v else s[i])
  {
    if |s| == 0 then []
    else [if key(s[0]) == key(v) then v else s[0]] + ReplaceByKey(s[1..], key, v)
  }

  /** The elements whose key is not `k`, in their original relative order. */
  function RemoveByKey<T>(s: seq<T>, key: T -> string, k: string): (r: seq<T>)
    ensures |r| <= |s|
    ensures forall i :: 0 <= i < |r| ==> r[i] in s && key(r[i]) != k
    ensures forall i :: 0 <= i < |s| && key(s[i]) != k ==> s[i] in r
  {
    if |s| == 0 then []
    else
      var rest := RemoveByKey(s[1..], key, k);
      assert forall i :: 1 <= i < |s| ==> s[i] == s[1..][i - 1];
      if key(s[0]) == k then rest else [s[0]] + rest
  }

  /** Replacing keeps the sequence of keys, so positions and identities survive an update. */
  lemma ReplaceKeepsKeys<T>(s: seq<T>, key: T -> string, v: T)
    ensures forall i :: 0 <= i < |s| ==> key(ReplaceByKey(s, key, v)[i]) == key(s[i])
  {
  }

  /** Replacing a second time with the same value changes nothing. */
  lemma ReplaceIdempotent<T>(s: seq<T>, key: T -> string, v: T)
    ensures ReplaceByKey(ReplaceByKey(s, key, v), key, v) == ReplaceByKey(s, key, v)
  {
    var r := ReplaceByKey(s, key, v);
    assert forall i :: 0 <= i < |r| ==> ReplaceByKey(r, key, v)[i] == r[i];
  }

  /** Filtering distributes over concatenation: the survivors of each part, in order. */
  lemma {:induction false} RemoveAppend<T>(a: seq<T>, b: seq<T>, key: T -> string, k: string)
    ensures RemoveByKey(a + b, key, k) == RemoveByKey(a, key, k) + RemoveByKey(b, key, k)
  {
    if |a| == 0 {
      assert a + b == b;
    } else {
      assert (a + b)[1..] == a[1..] + b;
      RemoveAppend(a[1..], b, key, k);
    }
  }

  /** Removing what is already gone changes nothing. */
  lemma {:induction false} RemoveIdempotent<T>(s: seq<T>, key: T -> string, k: string)
    ensures RemoveByKey(RemoveByKey(s, key, k), key, k) == RemoveByKey(s, key, k)
  {
    if |s| > 0 {
      RemoveIdempotent(s[1..], key, k);
      var rest := RemoveByKey(s[1..], key, k);
      if key(s[0]) != k {
        assert ([s[0]] + rest)[1..] == rest;
      }
    }
  }

  /** A list with no element under key `k` passes through the filter untouched. */
  lemma {:induction false} RemoveAbsent<T>(s: seq<T>, key: T -> string, k: string)
    requires forall i :: 0 <= i < |s| ==> key(s[i]) != k
    ensures RemoveByKey(s, key, k) == s
  {
    if |s| > 0 {
      RemoveAbsent(s[1..], key, k);
      assert [s[0]] + s[1..] == s;
    }
  }

  /** Deleting after an update under the same id is the same as deleting directly. */
  lemma {:induction false} RemoveAfterReplace<T>(s: seq<T>, key: T -> string, v: T)
    ensures RemoveByKey(ReplaceByKey(s, key, v), key, key(v)) == RemoveByKey(s, key, key(v))
  {
    if |s| > 0 {
      var r := ReplaceByKey(s, key, v);
      assert r[1..] == ReplaceByKey(s[1..], key, v);
      RemoveAfterReplace(s[1..], key, v);
    }
  }
}

=== FILE: pocketbase.dfy ===
/**
 * The decision logic of the service layer in front of the PocketBase record store: error mapping,
 * authorization guards, role predicates, filter strings, the resource file URL and the resource
 * upload form. Every remote call is split into a pure decision (a `Plan`: reject now, or send this
 * request) and a settlement that receives the server's answer as a parameter.
 */
module PocketBase {
  import opened Wrappers
  import Js

  // ---------------------------------------------------------------------------
  // Errors
  // ---------------------------------------------------------------------------

  /** A thrown value: the SDK's error class (a subclass of `Error`), a plain `Error`, or anything else. */
  datatype Failure =
    | ClientResponseError(status: int, message: string)
    | PlainError(message: string)
    | NonError(description: string)

  const MsgBadRequest := "Invalid request. Please check your input."
  const MsgUnauthorized := "Please log in to access this resource."
  const MsgForbidden := "You do not have permission to access this resource."
  const MsgNotFound := "The requested resource was not found."
  const MsgTooManyRequests := "Too many requests. Please try again later."
  const MsgUnexpected := "An unexpected error occurred."

  /** The HTTP statuses the error handler gives a message of their own. */
  const HandledStatuses: set<int> := {400, 401, 403, 404, 429}

  function StatusMessage(status: int): string {
    if status == 400 then MsgBadRequest
    else if status == 401 then MsgUnauthorized
    else if status == 403 then MsgForbidden
    else if status == 404 then MsgNotFound
    else if status == 429 then MsgTooManyRequests
    else MsgUnexpected
  }

  /** Each handled status has its own message, and none of them is the catch-all one. */
  lemma StatusMessagesDistinct(a: int, b: int)
    ensures StatusMessage(a) == MsgUnexpected <==> a !in HandledStatuses
    ensures StatusMessage(a) == StatusMessage(b) ==> a == b || (a !in HandledStatuses && b !in HandledStatuses)
  {
  }

  /**
   * `handlePocketbaseError`, which always throws: the value returned here is the one it throws.
   * An SDK error becomes a plain `Error` whose message depends only on the status; any other
   * thrown value is rethrown as it is.
   */
  function HandlePocketbaseError(e: Failure): (r: Failure)
    ensures !r.ClientResponseError?
    ensures e.ClientResponseError? ==> r.PlainError? && r.message == StatusMessage(e.status)
    ensures !e.ClientResponseError? ==> r == e
  {
    match e
    case ClientResponseError(status, _) => PlainError(StatusMessage(status))
    case _ => e
  }

  /** Passing an error through the handler twice is passing it once. */
  lemma HandlerIdempotent(e: Failure)
    ensures HandlePocketbaseError(HandlePocketbaseError(e)) == HandlePocketbaseError(e)
  {
  }

  /** `error instanceof Error ? error.message : fallback`. */
  function MessageOr(e: Failure, fallback: string): (m: string)
    ensures e.NonError? ==> m == fallback
    ensures !e.NonError? ==> m == e.message
  {
    if e.NonError? then fallback else e.message
  }

  // ---------------------------------------------------------------------------
  // Auth store and roles
  // ---------------------------------------------------------------------------

  /** The user record the auth store holds; `admin` is the truthiness of its `admin` field. */
  datatype AuthModel = AuthModel(id: string, role: string, admin: bool)

  /** `pb.authStore`: whether its token is valid, and the model it holds. */
  datatype AuthStore = AuthStore(isValid: bool, model: Option<AuthModel>)

  /** `getCurrentUser`: the stored model, but only while the token is valid. */
  function CurrentUser(auth: AuthStore): (u: Option<AuthModel>)
    ensures u.Some? <==> auth.isValid && auth.model.Some?
    ensures u.Some? ==> u.value == auth.model.value
  {
    if !auth.isValid then None else auth.model
  }

  /** `pb.authStore.model?.id`, regardless of token validity. */
  function ModelId(auth: AuthStore): Option<string> {
    if auth.model.Some? then Some(auth.model.value.id) else None
  }

  predicate HasRole(auth: AuthStore, role: string) {
    var u := CurrentUser(auth);
    u.Some? && u.value.role == role
  }

  /** `isInstructor()`: a valid session whose user has the role "instructor". */
  predicate IsInstructor(auth: AuthStore): (b: bool)
    ensures b <==> auth.isValid && auth.model.Some? && auth.model.value.role == "instructor"
  {
    HasRole(auth, "instructor")
  }

  /** `isAdmin()`: a valid session whose user has the role "admin" (the `admin` flag is not read). */
  predicate IsAdmin(auth: AuthStore): (b: bool)
    ensures b <==> auth.isValid && auth.model.Some? && auth.model.value.role == "admin"
  {
    HasRole(auth, "admin")
  }

  /** `isStudent()`: a valid session whose user has the role "student". */
  predicate IsStudent(auth: AuthStore): (b: bool)
    ensures b <==> auth.isValid && auth.model.Some? && auth.model.value.role == "student"
  {
    HasRole(auth, "student")
  }

  /**
   * The three role tests exclude one another, are all false without a valid session, and one of
   * them holds exactly when the session is valid and its user has one of the three roles.
   */
  lemma RolesExclusive(auth: AuthStore)
    ensures !(IsInstructor(auth) && IsAdmin(auth))
    ensures !(IsInstructor(auth) && IsStudent(auth))
    ensures !(IsAdmin(auth) && IsStudent(auth))
    ensures !auth.isValid ==> !IsInstructor(auth) && !IsAdmin(auth) && !IsStudent(auth)
    ensures (IsInstructor(auth) || IsAdmin(auth) || IsStudent(auth)) <==>
      auth.isValid && auth.model.Some? && auth.model.value.role in {"instructor", "admin", "student"}
  {
  }

  // ---------------------------------------------------------------------------
  // Filter strings
  // ---------------------------------------------------------------------------

  /** The filter `field = "<id>"` used by every list query. */
  function FieldEquals(field: string, id: string): (f: string)
    ensures |f| == |field| + |id| + 5
    ensures f[..|field|] == field && f[|field|..|field| + 4] == " = \"" && f[|f| - 1] == '"'
    ensures f[|field| + 4..|f| - 1] == id
  {
    field + " = \"" + id + "\""
  }

  /** Two filters on the same field are equal only when they select the same id. */
  lemma FieldEqualsInjective(field: string, a: string, b: string)
    requires FieldEquals(field, a) == FieldEquals(field, b)
    ensures a == b
  {
    var f := FieldEquals(field, a);
    assert a == f[|field| + 4..|f| - 1];
  }

  /** `lessonService.getAll`: the lessons of one course. */
  function LessonsFilter(courseId: string): (f: string)
    ensures f == "course = \"" + courseId + "\""
  {
    FieldEquals("course", courseId)
  }

  /** `lessonResourceService.getAll`: the resources of one lesson. */
  function ResourcesFilter(lessonId: string): (f: string)
    ensures f == "lesson = \"" + lessonId + "\""
  {
    FieldEquals("lesson", lessonId)
  }

  /** `lessonNoteService.getAll`: the notes of one lesson. */
  function NotesFilter(lessonId: string): (f: string)
    ensures f == "lesson = \"" + lessonId + "\""
  {
    FieldEquals("lesson", lessonId)
  }

  /** `reviewService.getAll`: the reviews of one course. */
  function ReviewsFilter(courseId: string): (f: string)
    ensures f == "course = \"" + courseId + "\""
  {
    FieldEquals("course", courseId)
  }

  /** A lesson's resources and its notes are selected by the same filter; so are a course's lessons and reviews. */
  lemma FiltersShareShape(courseId: string, lessonId: string)
    ensures ResourcesFilter(lessonId) == NotesFilter(lessonId)
    ensures LessonsFilter(courseId) == ReviewsFilter(courseId)
    ensures LessonsFilter(courseId) != NotesFilter(lessonId)
  {
    var a := LessonsFilter(courseId);
    var b := NotesFilter(lessonId);
    assert a[0] == 'c' && b[0] == 'l';
  }

  /** `enrollmentService.getAll`: no filter at all without a user id, `user = "<id>"` with one. */
  function EnrollmentsFilter(userId: Option<string>): (f: string)
    ensures f == "" <==> !Js.Present(userId)
    ensures Js.Present(userId) ==> f == FieldEquals("user", userId.value)
  {
    if Js.Present(userId) then FieldEquals("user", userId.value) else ""
  }

  // ---------------------------------------------------------------------------
  // File URLs
  // ---------------------------------------------------------------------------

  const ResourcesCollection := "lesson_resources"

  /** The base the standalone `getFileUrl` helper hard-codes. */
  const DevServer := "http://127.0.0.1:8090"

  /** `${base}/api/files/${collection}/${recordId}/${fileName}`. */
  function FilesUrl(base: string, collection: string, recordId: string, fileName: string): string {
    base + "/api/files/" + collection + "/" + recordId + "/" + fileName
  }

  lemma SlashPositionDiffers(a: string, x: string, c: string, y: string)
    requires '/' !in c && |a| < |c|
    ensures a + "/" + x != c + "/" + y
  {
    assert (a + "/" + x)[|a|] == '/';
    assert (c + "/" + y)[|a|] == c[|a|];
  }

  /** Two slash-free heads joined by a slash to their tails split back at that slash. */
  lemma SplitAtSlash(a: string, x: string, c: string, y: string)
    requires '/' !in a && '/' !in c
    requires a + "/" + x == c + "/" + y
    ensures a == c && x == y
  {
    var s := a + "/" + x;
    if |a| < |c| {
      SlashPositionDiffers(a, x, c, y);
      assert false;
    } else if |c| < |a| {
      SlashPositionDiffers(c, y, a, x);
      assert false;
    }
    assert a == s[..|a|] == c;
    assert x == s[|a| + 1..] == y;
  }

  /** Below one base and collection, a file URL names exactly one record id and one file name. */
  lemma FilesUrlInjective(base: string, collection: string, id1: string, f1: string, id2: string, f2: string)
    requires '/' !in id1 && '/' !in id2
    requires FilesUrl(base, collection, id1, f1) == FilesUrl(base, collection, id2, f2)
    ensures id1 == id2 && f1 == f2
  {
    var p := base + "/api/files/" + collection + "/";
    var u1 := FilesUrl(base, collection, id1, f1);
    var u2 := FilesUrl(base, collection, id2, f2);
    assert u1 == p + (id1 + "/" + f1);
    assert u2 == p + (id2 + "/" + f2);
    assert id1 + "/" + f1 == u1[|p|..];
    assert id2 + "/" + f2 == u2[|p|..];
    SplitAtSlash(id1, f1, id2, f2);
  }

  /** `getFileUrl(record, filename)`: the file URL on the hard-coded development server. */
  function RecordFileUrl(collectionId: string, recordId: string, fileName: string): (u: string)
    ensures u == "http://127.0.0.1:8090/api/files/" + collectionId + "/" + recordId + "/" + fileName
  {
    FilesUrl(DevServer, collectionId, recordId, fileName)
  }

  /** A lesson resource; an absent optional field and the empty string are both falsy. */
  datatype LessonResource = LessonResource(
    id: string,
    lesson: string,
    resourceTitle: string,
    resourceFile: Option<string>,
    resourceLink: Option<string>,
    resourceType: string,
    resourceDescription: Option<string>)

  /**
   * `lessonResourceService.getFileUrl`. A non-empty link wins; with neither link nor file the
   * answer is ''; otherwise it is the stored file's URL, or '' when `isValidUrl` (the `new URL`
   * parse) refuses it.
   */
  function ResourceFileUrl(record: LessonResource, baseUrl: string, isValidUrl: string -> bool): (u: string)
    ensures Js.Present(record.resourceLink) ==> u == record.resourceLink.value
    ensures !Js.Present(record.resourceLink) && !Js.Present(record.resourceFile) ==> u == ""
    ensures !Js.Present(record.resourceLink) && Js.Present(record.resourceFile) ==>
      var url := FilesUrl(baseUrl, ResourcesCollection, record.id, record.resourceFile.value);
      (isValidUrl(url) ==> u == url) && (!isValidUrl(url) ==> u == "")
  {
    if Js.Present(record.resourceLink) then record.resourceLink.value
    else if !Js.Present(record.resourceFile) then ""
    else
      var url := FilesUrl(baseUrl, ResourcesCollection, record.id, record.resourceFile.value);
      if isValidUrl(url) then url else ""
  }

  /**
   * Without a link, a non-empty answer names the record and its file: two link-less resources
   * whose ids hold no '/' get the same non-empty URL only if they share id and file name.
   */
  lemma ResourceFileUrlNamesRecord(a: LessonResource, b: LessonResource, baseUrl: string, isValidUrl: string -> bool)
    requires !Js.Present(a.resourceLink) && !Js.Present(b.resourceLink)
    requires '/' !in a.id && '/' !in b.id
    requires ResourceFileUrl(a, baseUrl, isValidUrl) == ResourceFileUrl(b, baseUrl, isValidUrl) != ""
    ensures a.id == b.id && a.resourceFile == b.resourceFile
  {
    FilesUrlInjective(baseUrl, ResourcesCollection, a.id, a.resourceFile.value, b.id, b.resourceFile.value);
  }

  // ---------------------------------------------------------------------------
  // Resource upload form
  // ---------------------------------------------------------------------------

  /** A selected file, known by its name. */
  datatype FileRef = FileRef(name: string)

  /** A `FormData` entry value: a string or a file. */
  datatype FormValue = Text(text: string) | Blob(file: FileRef)

  /** `FormData`: appended entries in order; the same key may occur more than once. */
  type FormData = Js.Entries<FormValue>

  /** The argument of `lessonResourceService.create`. */
  datatype ResourceInput = ResourceInput(
    lesson: string,
    resourceTitle: string,
    resourceFile: Option<FileRef>,
    resourceLink: Option<string>,
    resourceType: string,
    resourceDescription: Option<string>)

  /**
   * The form `lessonResourceService.create` uploads. It starts with lesson, title and type; the
   * description is added only when non-empty; a file, if given, is sent and then no link is.
   */
  function ResourceForm(d: ResourceInput): (f: FormData)
    ensures |f| >= 3
    ensures f[0] == ("lesson", Text(d.lesson))
    ensures f[1] == ("resource_title", Text(d.resourceTitle))
    ensures f[2] == ("resource_type", Text(d.resourceType))
    ensures Js.Distinct(f)
    ensures "resource_description" in Js.Keys(f) <==> Js.Present(d.resourceDescription)
    ensures Js.Present(d.resourceDescription) ==>
      Js.Get(f, "resource_description") == Some(Text(d.resourceDescription.value))
    ensures "resource_file" in Js.Keys(f) <==> d.resourceFile.Some?
    ensures d.resourceFile.Some? ==> Js.Get(f, "resource_file") == Some(Blob(d.resourceFile.value))
    ensures "resource_link" in Js.Keys(f) <==> d.resourceFile.None? && Js.Present(d.resourceLink)
    ensures "resource_link" in Js.Keys(f) ==> Js.Get(f, "resource_link") == Some(Text(d.resourceLink.value))
    ensures !("resource_file" in Js.Keys(f) && "resource_link" in Js.Keys(f))
    ensures |f| <= 5
  {
    var base := [("lesson", Text(d.lesson)), ("resource_title", Text(d.resourceTitle)),
                 ("resource_type", Text(d.resourceType))];
    var withDescription :=
      if Js.Present(d.resourceDescription)
      then base + [("resource_description", Text(d.resourceDescription.value))]
      else base;
    var tail: FormData :=
      if d.resourceFile.Some? then [("resource_file", Blob(d.resourceFile.value))]
      else if Js.Present(d.resourceLink) then [("resource_link", Text(d.resourceLink.value))]
      else [];
    ResourceFormKeys(base, withDescription, tail, d);
    withDescription + tail
  }

  /** The keys of the upload form, in order. */
  function FormKeys(d: ResourceInput): seq<string> {
    ["lesson", "resource_title", "resource_type"]
      + (if Js.Present(d.resourceDescription) then ["resource_description"] else [])
      + (if d.resourceFile.Some? then ["resource_file"]
         else if Js.Present(d.resourceLink) then ["resource_link"] else [])
  }

  lemma ResourceFormKeyList(base: FormData, withDescription: FormData, tail: FormData, d: ResourceInput)
    requires base == [("lesson", Text(d.lesson)), ("resource_title", Text(d.resourceTitle)),
                      ("resource_type", Text(d.resourceType))]
    requires withDescription ==
      if Js.Present(d.resourceDescription)
      then base + [("resource_description", Text(d.resourceDescription.value))]
      else base
    requires tail ==
      if d.resourceFile.Some? then [("resource_file", Blob(d.resourceFile.value))]
      else if Js.Present(d.resourceLink) then [("resource_link", Text(d.resourceLink.value))]
      else []
    ensures Js.Keys(withDescription + tail) == FormKeys(d)
    ensures Js.Distinct(withDescription + tail)
  {
    var f := withDescription + tail;
    assert Js.Keys(base) == ["lesson", "resource_title", "resource_type"];
    Js.KeysAppend(withDescription, tail);
    var ks := FormKeys(d);
    assert Js.Keys(f) == ks;
    assert forall i, j :: 0 <= i < j < |ks| ==> ks[i] != ks[j];
  }

  lemma ResourceFormKeys(base: FormData, withDescription: FormData, tail: FormData, d: ResourceInput)
    requires base == [("lesson", Text(d.lesson)), ("resource_title", Text(d.resourceTitle)),
                      ("resource_type", Text(d.resourceType))]
    requires withDescription ==
      if Js.Present(d.resourceDescription)
      then base + [("resource_description", Text(d.resourceDescription.value))]
      else base
    requires tail ==
      if d.resourceFile.Some? then [("resource_file", Blob(d.resourceFile.value))]
      else if Js.Present(d.resourceLink) then [("resource_link", Text(d.resourceLink.value))]
      else []
    ensures var f := withDescription + tail;
      && Js.Distinct(f)
      && ("resource_description" in Js.Keys(f) <==> Js.Present(d.resourceDescription))
      && (Js.Present(d.resourceDescription) ==>
           Js.Get(f, "resource_description") == Some(Text(d.resourceDescription.value)))
      && ("resource_file" in Js.Keys(f) <==> d.resourceFile.Some?)
      && (d.resourceFile.Some? ==> Js.Get(f, "resource_file") == Some(Blob(d.resourceFile.value)))
      && ("resource_link" in Js.Keys(f) <==> d.resourceFile.None? && Js.Present(d.resourceLink))
      && ("resource_link" in Js.Keys(f) ==> Js.Get(f, "resource_link") == Some(Text(d.resourceLink.value)))
  {
    var f := withDescription + tail;
    ResourceFormKeyList(base, withDescription, tail, d);
    if Js.Present(d.resourceDescription) {
      var i := 3;
      assert f[i] == ("resource_description", Text(d.resourceDescription.value));
      Js.GetDistinct(f, i);
    }
    if |tail| == 1 {
      var i := |withDescription|;
      assert f[i] == tail[0];
      Js.GetDistinct(f, i);
    }
  }

  // ---------------------------------------------------------------------------
  // Guarded remote calls
  // ---------------------------------------------------------------------------

  /** What a service method does before its remote call: throw `error`, or send `request`. */
  datatype Plan<+P> = Reject(error: Failure) | Send(request: P)

  /**
   * The promise a service method returns: its own rejection if it never called out, otherwise the
   * server's answer with a rejection rewritten by the method's `catch`.
   */
  function Settle<P, T>(plan: Plan<P>, remote: Result<T, Failure>, onRemoteError: Failure -> Failure): (r: Result<T, Failure>)
    ensures plan.Reject? ==> r == Err(plan.error)
    ensures plan.Send? && remote.Ok? ==> r == Ok(remote.value)
    ensures plan.Send? && remote.Err? ==> r == Err(onRemoteError(remote.error))
  {
    match plan
    case Reject(e) => Err(e)
    case Send(_) => remote.MapErr(onRemoteError)
  }

  /** A `catch` that logs and rethrows the error unchanged. */
  function Rethrow(e: Failure): Failure { e }

  /** A course as far as the guards look at it. */
  datatype Course = Course(id: string, instructor: string)

  datatype CourseAction = UpdateCourse | DeleteCourse

  const MsgCourseNotFound := "Course not found"

  function CourseAuthMessage(action: CourseAction): string {
    match action
    case UpdateCourse => "Must be authenticated to update courses"
    case DeleteCourse => "Must be authenticated to delete courses"
  }

  function CourseForbiddenMessage(action: CourseAction): string {
    match action
    case UpdateCourse => "Only course instructors or admins can update courses"
    case DeleteCourse => "Only course instructors or admins can delete courses"
  }

  /**
   * `courseService.updateCourse` / `deleteCourse` up to the remote write. `fetched` is what
   * `getCourse(id)` returned (`null` on any fetch failure). A missing course is reported before
   * the session is looked at; then the session must be valid; then the user must be an admin or
   * the course's instructor. The write, when sent, targets `id`.
   */
  function CourseChange(action: CourseAction, id: string, fetched: Option<Course>, auth: AuthStore): (p: Plan<string>)
    ensures fetched.None? ==> p == Reject(PlainError(MsgCourseNotFound))
    ensures fetched.Some? && !auth.isValid ==> p == Reject(PlainError(CourseAuthMessage(action)))
    ensures p.Send? <==>
      && fetched.Some? && auth.isValid && auth.model.Some?
      && (auth.model.value.admin || fetched.value.instructor == auth.model.value.id)
    ensures p.Send? ==> p.request == id
    ensures p.Reject? && fetched.Some? && auth.isValid ==> p.error == PlainError(CourseForbiddenMessage(action))
  {
    if fetched.None? then Reject(PlainError(MsgCourseNotFound))
    else if !auth.isValid then Reject(PlainError(CourseAuthMessage(action)))
    else
      var user := auth.model;
      if !(user.Some? && user.value.admin) && !(user.Some? && fetched.value.instructor == user.value.id)
      then Reject(PlainError(CourseForbiddenMessage(action)))
      else Send(id)
  }

  /**
   * A course write is sent only for a course that was found, in a valid session with a user,
   * and only when that user carries the `admin` flag or is the course's instructor.
   */
  lemma CourseChangeNeedsOwnerOrAdmin(action: CourseAction, id: string, fetched: Option<Course>, auth: AuthStore)
    requires CourseChange(action, id, fetched, auth).Send?
    ensures fetched.Some? && auth.isValid && auth.model.Some?
    ensures auth.model.value.admin || auth.model.value.id == fetched.value.instructor
  {
  }

  /**
   * The guard reads the `admin` flag, not the role: a user whose role is "admin" but whose flag is
   * off is refused on someone else's course, although `isAdmin()` holds for them.
   */
  lemma AdminRoleAloneRefused(action: CourseAction, id: string, course: Course, auth: AuthStore)
    requires auth.isValid && auth.model.Some?
    requires auth.model.value.role == "admin" && !auth.model.value.admin
    requires auth.model.value.id != course.instructor
    ensures IsAdmin(auth)
    ensures CourseChange(action, id, Some(course), auth) == Reject(PlainError(CourseForbiddenMessage(action)))
  {
  }

  /** Updating and deleting a course are allowed for exactly the same callers. */
  lemma CourseActionsAgree(id: string, fetched: Option<Course>, auth: AuthStore)
    ensures CourseChange(UpdateCourse, id, fetched, auth).Send? == CourseChange(DeleteCourse, id, fetched, auth).Send?
  {
  }

  datatype SettingsAction = CreateSettings | UpdateSettings

  /** `settingsService.createSettings` / `updateSettings` up to the remote write. */
  function SettingsChange<P>(action: SettingsAction, auth: AuthStore, request: P): (p: Plan<P>)
    ensures p.Send? <==> auth.isValid && auth.model.Some? && auth.model.value.admin
    ensures p.Send? ==> p.request == request
    ensures p.Reject? ==> p.error == PlainError(
      if action.CreateSettings? then "Only admins can create settings" else "Only admins can update settings")
  {
    if !auth.isValid || !(auth.model.Some? && auth.model.value.admin) then
      Reject(PlainError(match action
        case CreateSettings => "Only admins can create settings"
        case UpdateSettings => "Only admins can update settings"))
    else Send(request)
  }

  /** Creating and updating settings are allowed for exactly the same sessions, and the role plays no part. */
  lemma SettingsActionsAgree<P>(auth: AuthStore, role: string, request: P)
    ensures SettingsChange(CreateSettings, auth, request).Send? == SettingsChange(UpdateSettings, auth, request).Send?
    ensures auth.model.Some? ==>
      SettingsChange(UpdateSettings, auth.(model := Some(auth.model.value.(role := role))), request).Send?
        == SettingsChange(UpdateSettings, auth, request).Send?
  {
  }

  // ---------------------------------------------------------------------------
  // Reviews and notes
  // ---------------------------------------------------------------------------

  /** The record `reviewService.create` sends; `user` is `pb.authStore.model?.id`. */
  datatype ReviewCreateRequest = ReviewCreateRequest(course: string, rating: int, comment: string, user: Option<string>)

  /** The record `reviewService.update` sends for review `id`. */
  datatype ReviewUpdateRequest = ReviewUpdateRequest(id: string, rating: int, comment: string)

  /** `reviewService.create` before its remote call: it needs a valid session, nothing more. */
  function ReviewCreate(auth: AuthStore, course: string, rating: int, comment: string): (p: Plan<ReviewCreateRequest>)
    ensures p.Reject? <==> !auth.isValid
    ensures p.Reject? ==> p.error == PlainError("You must be logged in to create a review")
    ensures p.Send? ==> p.request == ReviewCreateRequest(course, rating, comment, ModelId(auth))
  {
    if !auth.isValid then Reject(PlainError("You must be logged in to create a review"))
    else Send(ReviewCreateRequest(course, rating, comment, ModelId(auth)))
  }

  /** `reviewService.update` before its remote call. */
  function ReviewUpdate(auth: AuthStore, id: string, rating: int, comment: string): (p: Plan<ReviewUpdateRequest>)
    ensures p.Reject? <==> !auth.isValid
    ensures p.Reject? ==> p.error == PlainError("You must be logged in to update a review")
    ensures p.Send? ==> p.request == ReviewUpdateRequest(id, rating, comment)
  {
    if !auth.isValid then Reject(PlainError("You must be logged in to update a review"))
    else Send(ReviewUpdateRequest(id, rating, comment))
  }

  /** `reviewService.delete` before its remote call. */
  function ReviewDelete(auth: AuthStore, id: string): (p: Plan<string>)
    ensures p.Reject? <==> !auth.isValid
    ensures p.Reject? ==> p.error == PlainError("You must be logged in to delete a review")
    ensures p.Send? ==> p.request == id
  {
    if !auth.isValid then Reject(PlainError("You must be logged in to delete a review"))
    else Send(id)
  }

  /** The three review calls refuse exactly the same sessions. */
  lemma ReviewGuardsAgree(auth: AuthStore, course: string, id: string, rating: int, comment: string)
    ensures ReviewCreate(auth, course, rating, comment).Reject? == ReviewUpdate(auth, id, rating, comment).Reject?
    ensures ReviewUpdate(auth, id, rating, comment).Reject? == ReviewDelete(auth, id).Reject?
  {
  }

  /** The `catch` of the review service: a plain `Error` carrying the message, or `fallback`. */
  function ReviewFailure(fallback: string): (h: Failure -> Failure)
    ensures forall e: Failure :: h(e).PlainError?
    ensures forall e: Failure :: !e.NonError? ==> h(e).message == e.message
    ensures forall e: Failure :: e.NonError? ==> h(e).message == fallback
  {
    e => PlainError(MessageOr(e, fallback))
  }

  /**
   * A server refusal of a review write reaches the caller as a plain `Error` with the server's
   * message: its status, a 403 say, is gone.
   */
  lemma ReviewFailureDropsStatus<T>(auth: AuthStore, course: string, rating: int, comment: string, status: int, message: string)
    requires auth.isValid
    ensures Settle<ReviewCreateRequest, T>(ReviewCreate(auth, course, rating, comment), Err(ClientResponseError(status, message)),
                   ReviewFailure("Failed to create review")) == Err(PlainError(message))
  {
  }

  /** The record `lessonNoteService.create` sends. */
  datatype NoteCreateRequest = NoteCreateRequest(lesson: string, content: string, user: string)

  /**
   * `lessonNoteService.create` before its remote call: it needs a truthy `model?.id` (token
   * validity is not consulted) and stamps that id as the note's user.
   */
  function NoteCreate(auth: AuthStore, lesson: string, content: string): (p: Plan<NoteCreateRequest>)
    ensures p.Reject? <==> !Js.Present(ModelId(auth))
    ensures p.Reject? ==> HandlePocketbaseError(p.error) == PlainError("User not authenticated")
    ensures p.Send? ==> p.request == NoteCreateRequest(lesson, content, auth.model.value.id)
  {
    var user := ModelId(auth);
    if !Js.Present(user) then Reject(PlainError("User not authenticated"))
    else Send(NoteCreateRequest(lesson, content, user.value))
  }

  /**
   * The note guard reads only the stored user id: with an expired token and a leftover user it
   * still sends, where the review guard refuses.
   */
  lemma NoteGuardIgnoresToken(auth: AuthStore, lesson: string, content: string, course: string, rating: int)
    requires !auth.isValid && Js.Present(ModelId(auth))
    ensures NoteCreate(auth, lesson, content).Send?
    ensures ReviewCreate(auth, course, rating, content).Reject?
  {
  }

  /** A refused plan never reaches the server: its error stands, whatever the server would have said. */
  lemma RejectIgnoresRemote<P, T>(e: Failure, remote: Result<T, Failure>, onRemoteError: Failure -> Failure)
    ensures Settle<P, T>(Reject(e), remote, onRemoteError) == Err(e)
  {
  }
}

=== FILE: progress_bar.dfy ===
/** The course progress bar's milestones and which of them are highlighted. */
module ProgressBar {
  datatype Milestone = Milestone(title: string, threshold: int)

  /** The three milestones, in display order. */
  const Milestones: seq<Milestone> := [
    Milestone("Complete a Class", 33),
    Milestone("Submit a Project", 66),
    Milestone("Earn a Certificate", 100)
  ]

  predicate Ascending(ms: seq<Milestone>) {
    forall i, j :: 0 <= i < j < |ms| ==> ms[i].threshold <= ms[j].threshold
  }

  /** Milestone by milestone, whether it is drawn as reached: progress at or past its threshold. */
  function Highlights(ms: seq<Milestone>, progress: int): (lit: seq<bool>)
    ensures |lit| == |ms|
    ensures forall i :: 0 <= i < |ms| ==> (lit[i] <==> progress >= ms[i].threshold)
  {
    seq(|ms|, i requires 0 <= i < |ms| => progress >= ms[i].threshold)
  }

  /** With ascending thresholds the highlighted milestones are a prefix of the list. */
  lemma HighlightsArePrefix(ms: seq<Milestone>, progress: int)
    requires Ascending(ms)
    ensures var lit := Highlights(ms, progress);
      forall i, j :: 0 <= i < j < |ms| && lit[j] ==> lit[i]
  {
  }

  /** More progress never un-highlights a milestone. */
  lemma HighlightsMonotone(ms: seq<Milestone>, p: int, q: int)
    requires p <= q
    ensures forall i :: 0 <= i < |ms| && Highlights(ms, p)[i] ==> Highlights(ms, q)[i]
  {
  }

  lemma MilestonesAscending()
    ensures Ascending(Milestones)
  {
  }

  /** How many milestones a progress value has reached, read off the thresholds directly. */
  function ReachedCount(progress: int): (n: nat)
    ensures n <= 3
  {
    if progress >= 100 then 3
    else if progress >= 66 then 2
    else if progress >= 33 then 1
    else 0
  }

  /** The bar highlights exactly the first `ReachedCount` milestones. */
  lemma HighlightsMatchCount(progress: int)
    ensures |Highlights(Milestones, progress)| == 3
    ensures forall i :: 0 <= i < 3 ==> (Highlights(Milestones, progress)[i] <==> i < ReachedCount(progress))
  {
    var lit := Highlights(Milestones, progress);
    assert Milestones[0].threshold == 33;
    assert Milestones[1].threshold == 66;
    assert Milestones[2].threshold == 100;
  }

  /** Below the first threshold nothing is highlighted; at 100 everything is. */
  lemma HighlightsAtExtremes(progress: int)
    ensures progress < 33 ==> forall i :: 0 <= i < 3 ==> !Highlights(Milestones, progress)[i]
    ensures progress >= 100 ==> forall i :: 0 <= i < 3 ==> Highlights(Milestones, progress)[i]
  {
    HighlightsMatchCount(progress);
  }
}

=== FILE: review_form.dfy ===
/**
 * The review form backed by the client-side review store: its schema validation, the submit
 * handler that turns valid input into a stored review, and its star highlighting.
 */
module ReviewForm {
  import opened Wrappers
  import Js
  import ReviewStore

  /** The form's fields. */
  datatype Input = Input(rating: int, content: string)

  /** The values the form starts with. */
  const Defaults := Input(0, "")

  /** The schema's two checks, in field order. */
  datatype FieldError = RatingOutOfRange | ContentTooShort

  const MinContentLength := 10
  const ContentTooShortMessage := "Review must be at least 10 characters"

  /** The message the form shows under a field; the rating's is the schema library's default text. */
  function ErrorMessage(e: FieldError): Option<string> {
    match e
    case ContentTooShort => Some(ContentTooShortMessage)
    case RatingOutOfRange => None
  }

  /**
   * `reviewSchema`: every failed check, rating first. The rating must lie in [1, 5] and the
   * content must have at least 10 characters.
   */
  function Validate(d: Input): (errs: seq<FieldError>)
    ensures RatingOutOfRange in errs <==> !(1 <= d.rating <= 5)
    ensures ContentTooShort in errs <==> |d.content| < MinContentLength
    ensures |errs| <= 2
    ensures |errs| == 2 ==> errs == [RatingOutOfRange, ContentTooShort]
  {
    (if 1 <= d.rating <= 5 then [] else [RatingOutOfRange])
    + (if |d.content| >= MinContentLength then [] else [ContentTooShort])
  }

  /** Input passes the schema exactly when the rating is in range and the content is long enough. */
  lemma ValidIff(d: Input)
    ensures Validate(d) == [] <==> 1 <= d.rating <= 5 && |d.content| >= 10
  {
    if Validate(d) == [] {
      assert RatingOutOfRange !in Validate(d);
    }
  }

  /** The untouched form fails on both fields. */
  lemma DefaultsRejected()
    ensures Validate(Defaults) == [RatingOutOfRange, ContentTooShort]
  {
  }

  /**
   * `onSubmit` for validated data, with the store's current user id, the review id
   * (`crypto.randomUUID()`) and the two clock readings (`new Date().toISOString()`, taken once
   * for `createdAt` and again for `updatedAt`) as parameters.
   * Without a user nothing is added and `onSuccess` is not called; otherwise exactly one review
   * is added and `onSuccess` is called. The result is the new store and whether `onSuccess` ran.
   */
  function OnSubmit(store: ReviewStore.Reviews, courseId: string, userId: Option<string>, d: Input,
                    uuid: string, createdAt: string, updatedAt: string): (r: (ReviewStore.Reviews, bool))
    ensures userId.None? ==> r == (store, false)
    ensures userId.Some? ==> r.1 && r.0 == ReviewStore.AddReview(store,
      ReviewStore.Review(uuid, courseId, userId.value, d.rating, d.content, createdAt, updatedAt))
  {
    match userId
    case None => (store, false)
    case Some(uid) =>
      (ReviewStore.AddReview(store, ReviewStore.Review(uuid, courseId, uid, d.rating, d.content, createdAt, updatedAt)), true)
  }

  /** Submitting the form: schema first, then `onSubmit` only for input that passes it. */
  function Submit(store: ReviewStore.Reviews, courseId: string, userId: Option<string>, d: Input,
                  uuid: string, createdAt: string, updatedAt: string): (r: (ReviewStore.Reviews, bool))
    ensures Validate(d) != [] ==> r == (store, false)
    ensures Validate(d) == [] ==> r == OnSubmit(store, courseId, userId, d, uuid, createdAt, updatedAt)
  {
    if Validate(d) != [] then (store, false) else OnSubmit(store, courseId, userId, d, uuid, createdAt, updatedAt)
  }

  /**
   * An accepted submission leaves the course's list one longer, ending with a review that carries
   * the course, the user and the validated rating (within [1, 5]) and content (10+ characters).
   */
  lemma SubmitAddsOne(store: ReviewStore.Reviews, courseId: string, uid: string, d: Input, uuid: string, createdAt: string, updatedAt: string)
    requires Validate(d) == []
    ensures var (store', called) := Submit(store, courseId, Some(uid), d, uuid, createdAt, updatedAt);
      var rs := ReviewStore.GetReviewsByCourse(store', courseId);
      && called
      && |rs| == |ReviewStore.GetReviewsByCourse(store, courseId)| + 1
      && rs[|rs| - 1].courseId == courseId && rs[|rs| - 1].userId == uid
      && 1 <= rs[|rs| - 1].rating <= 5 && |rs[|rs| - 1].content| >= 10
      && forall c :: c != courseId ==> ReviewStore.GetReviewsByCourse(store', c) == ReviewStore.GetReviewsByCourse(store, c)
  {
    ValidIff(d);
  }

  /** The star for `value` (1..5) is highlighted iff value <= (hovered || rating). */
  predicate StarLit(value: int, hovered: int, rating: int) {
    value <= Js.OrElse(hovered, rating)
  }

  /**
   * While a star is hovered exactly the stars up to it are lit; with nothing hovered the
   * lit stars are those up to the chosen rating.
   */
  lemma LitStarsFollowHover(value: int, hovered: int, rating: int)
    ensures hovered != 0 ==> (StarLit(value, hovered, rating) <==> value <= hovered)
    ensures hovered == 0 ==> (StarLit(value, hovered, rating) <==> value <= rating)
  {
  }
}

=== FILE: review_list.dfy ===
/**
 * The course review panel backed by the review service: its create-or-edit form, the mutations
 * its handlers issue, the resets on success and cancel, star rendering and owner gating.
 */
module ReviewList {
  import opened Wrappers
  import PocketBase

  /** A review record as the service returns it. */
  datatype Review = Review(id: string, course: string, user: string, rating: int, comment: string)

  /** The form's local state. */
  datatype Form = Form(rating: int, comment: string, isEditing: bool, editingReview: Option<Review>)

  /** The state the panel mounts with. */
  const Initial := Form(5, "", false, None)

  datatype ReviewMutation =
    | CreateReview(course: string, rating: int, comment: string)
    | UpdateReview(id: string, rating: int, comment: string)
    | DeleteReview(id: string)

  /**
   * `handleSubmit`, given `getCurrentUser()`: nothing without a user; an update of the review
   * being edited when in edit mode with one selected; a create for the panel's course otherwise.
   * The form's current rating and comment are sent as they are.
   */
  function HandleSubmit(f: Form, user: Option<PocketBase.AuthModel>, courseId: string): (m: Option<ReviewMutation>)
    ensures user.None? ==> m.None?
    ensures user.Some? && f.isEditing && f.editingReview.Some? ==>
      m == Some(UpdateReview(f.editingReview.value.id, f.rating, f.comment))
    ensures user.Some? && !(f.isEditing && f.editingReview.Some?) ==>
      m == Some(CreateReview(courseId, f.rating, f.comment))
  {
    if user.None? then None
    else if f.isEditing && f.editingReview.Some? then Some(UpdateReview(f.editingReview.value.id, f.rating, f.comment))
    else Some(CreateReview(courseId, f.rating, f.comment))
  }

  /** `handleEdit`: with a user, edit mode opens on `review` with its rating and comment loaded. */
  function HandleEdit(f: Form, user: Option<PocketBase.AuthModel>, review: Review): (r: Form)
    ensures user.None? ==> r == f
    ensures user.Some? ==> (r.isEditing && r.editingReview == Some(review)
                           && r.rating == review.rating && r.comment == review.comment)
  {
    if user.None? then f else Form(review.rating, review.comment, true, Some(review))
  }

  /** `handleDelete`: a delete only with a user and a confirmed dialog (`window.confirm`). */
  function HandleDelete(user: Option<PocketBase.AuthModel>, reviewId: string, confirmed: bool): (m: Option<ReviewMutation>)
    ensures m.Some? <==> user.Some? && confirmed
    ensures m.Some? ==> m.value == DeleteReview(reviewId)
  {
    if user.None? || !confirmed then None else Some(DeleteReview(reviewId))
  }

  /** Clicking the star at 0-based position `index` sets the rating to `index + 1`. */
  function ClickStar(f: Form, index: nat): (r: Form)
    requires index < 5
    ensures 1 <= r.rating <= 5 && r.rating == index + 1
    ensures r.comment == f.comment && r.isEditing == f.isEditing && r.editingReview == f.editingReview
  {
    f.(rating := index + 1)
  }

  /** Create `onSuccess`: the rating goes back to 5 and the comment to ''; the mode is untouched. */
  function CreateSucceeded(f: Form): (r: Form)
    ensures r.rating == 5 && r.comment == ""
    ensures r.isEditing == f.isEditing && r.editingReview == f.editingReview
  {
    f.(rating := 5, comment := "")
  }

  /** Update `onSuccess`: edit mode closes and the form is back to how it mounted. */
  function UpdateSucceeded(f: Form): (r: Form)
    ensures !r.isEditing && r.editingReview.None? && r.rating == 5 && r.comment == ""
  {
    Initial
  }

  /** The Cancel button: the same reset as a successful update. */
  function Cancel(f: Form): (r: Form)
    ensures r == Initial
  {
    UpdateSucceeded(f)
  }

  /** Editing then cancelling returns to the initial form, whatever was edited. */
  lemma EditThenCancel(f: Form, user: Option<PocketBase.AuthModel>, review: Review)
    ensures Cancel(HandleEdit(f, user, review)) == Initial
  {
  }

  /** Right after `handleEdit`, submitting sends an update of that review with its own rating and comment. */
  lemma EditThenSubmit(f: Form, user: Option<PocketBase.AuthModel>, review: Review, courseId: string)
    requires user.Some?
    ensures HandleSubmit(HandleEdit(f, user, review), user, courseId)
         == Some(UpdateReview(review.id, review.rating, review.comment))
  {
  }

  /**
   * Once an update has succeeded, the next submit is a create again: after typing a comment `c`
   * into the cleared, `required` field, it sends `c` with the reset rating 5 for the panel's course.
   */
  lemma SubmitAfterUpdateCreates(f: Form, user: Option<PocketBase.AuthModel>, courseId: string, c: string)
    requires user.Some? && c != ""
    ensures HandleSubmit(UpdateSucceeded(f).(comment := c), user, courseId) == Some(CreateReview(courseId, 5, c))
  {
  }

  /** `renderStars`: five stars; the star at 0-based position i is filled iff i < rating. */
  function RenderStars(rating: int): (filled: seq<bool>)
    ensures |filled| == 5
    ensures forall i :: 0 <= i < 5 ==> (filled[i] <==> i < rating)
  {
    seq(5, i => i < rating)
  }

  /** The filled stars are a prefix whose length is the rating clamped to [0, 5]. */
  lemma StarsArePrefix(rating: int, i: nat, j: nat)
    requires i <= j < 5
    ensures RenderStars(rating)[j] ==> RenderStars(rating)[i]
    ensures rating >= 5 ==> RenderStars(rating)[j]
    ensures rating <= 0 ==> !RenderStars(rating)[i]
  {
  }

  /** Edit and delete controls are shown only on the current user's own reviews. */
  predicate CanModify(user: Option<PocketBase.AuthModel>, review: Review): (b: bool)
    ensures b ==> user.Some? && user.value.id == review.user
    ensures user.None? ==> !b
  {
    user.Some? && user.value.id == review.user
  }

  /**
   * Ownership is decided by the review's author alone: changing its rating or comment never
   * gives or takes away the controls, and two users with different ids never both own it.
   */
  lemma OwnershipByAuthor(user: PocketBase.AuthModel, other: PocketBase.AuthModel, review: Review, rating: int, comment: string)
    ensures CanModify(Some(user), review.(rating := rating, comment := comment)) == CanModify(Some(user), review)
    ensures CanModify(Some(user), review) && CanModify(Some(other), review) ==> user.id == other.id
  {
  }

  /**
   * The controls shown on an own review always act: editing opens edit mode on it (no login
   * alert) and a confirmed delete is sent for its id.
   */
  lemma OwnControlsAct(f: Form, user: Option<PocketBase.AuthModel>, review: Review)
    requires CanModify(user, review)
    ensures HandleEdit(f, user, review).isEditing
    ensures HandleDelete(user, review.id, true) == Some(DeleteReview(review.id))
  {
  }

  /** The alert a failed mutation shows: the error's message, or the given fallback. */
  function FailureAlert(e: PocketBase.Failure, fallback: string): (m: string)
    ensures e.NonError? ==> m == fallback
    ensures !e.NonError? ==> m == e.message
  {
    PocketBase.MessageOr(e, fallback)
  }
}

=== FILE: review_store.dfy ===
/** The client-side review store: reviews grouped by course id, with add, update and delete. */
module ReviewStore {
  import opened Wrappers
  import Lists

  datatype Review = Review(
    id: string,
    courseId: string,
    userId: string,
    rating: int,
    content: string,
    createdAt: string,
    updatedAt: string)

  /** The store's `reviews` record: each course id to that course's reviews, oldest first. */
  type Reviews = map<string, seq<Review>>

  function ReviewId(r: Review): string { r.id }

  /** `getReviewsByCourse`: a course without an entry has no reviews. */
  function GetReviewsByCourse(m: Reviews, courseId: string): (rs: seq<Review>)
    ensures courseId !in m ==> rs == []
    ensures courseId in m ==> rs == m[courseId]
  {
    if courseId in m then m[courseId] else []
  }

  /** Every course other than `courseId` keeps its entry, and no entry appears or disappears. */
  ghost predicate OthersUnchanged(m: Reviews, r: Reviews, courseId: string) {
    forall c :: c in m && c != courseId ==> c in r && r[c] == m[c]
  }

  /**
   * `addReview`: the review goes at the end of its course's list (which is created if missing);
   * nothing else changes.
   */
  function AddReview(m: Reviews, review: Review): (r: Reviews)
    ensures r.Keys == m.Keys + {review.courseId}
    ensures OthersUnchanged(m, r, review.courseId)
    ensures r[review.courseId] == GetReviewsByCourse(m, review.courseId) + [review]
    ensures review.courseId !in m ==> r[review.courseId] == [review]
  {
    m[review.courseId := GetReviewsByCourse(m, review.courseId) + [review]]
  }

  /** After `addReview`, the course's reviews are one longer and end with the new review. */
  lemma AddThenGet(m: Reviews, review: Review)
    ensures var rs := GetReviewsByCourse(AddReview(m, review), review.courseId);
      |rs| == |GetReviewsByCourse(m, review.courseId)| + 1 && rs[|rs| - 1] == review
  {
  }

  /**
   * `updateReview`: every review of the course carrying this id becomes the new review, in place.
   * Mapping over a course with no entry throws (`undefined.map`), which leaves the store as it
   * was; that outcome is `None`.
   */
  function UpdateReview(m: Reviews, review: Review): (r: Option<Reviews>)
    ensures r.Some? <==> review.courseId in m
    ensures r.Some? ==> r.value.Keys == m.Keys && OthersUnchanged(m, r.value, review.courseId)
    ensures r.Some? ==>
      var before := m[review.courseId];
      var after := r.value[review.courseId];
      && |after| == |before|
      && (forall i :: 0 <= i < |before| && before[i].id == review.id ==> after[i] == review)
      && (forall i :: 0 <= i < |before| && before[i].id != review.id ==> after[i] == before[i])
  {
    if review.courseId !in m then None
    else Some(m[review.courseId := Lists.ReplaceByKey(m[review.courseId], ReviewId, review)])
  }

  /**
   * `deleteReview`: the course's reviews with this id are dropped and the rest keep their order.
   * Filtering a course with no entry throws (`undefined.filter`); that outcome is `None`.
   */
  function DeleteReview(m: Reviews, reviewId: string, courseId: string): (r: Option<Reviews>)
    ensures r.Some? <==> courseId in m
    ensures r.Some? ==> r.value.Keys == m.Keys && OthersUnchanged(m, r.value, courseId)
    ensures r.Some? ==>
      var before := m[courseId];
      var after := r.value[courseId];
      && (forall i :: 0 <= i < |after| ==> after[i] in before && after[i].id != reviewId)
      && (forall i :: 0 <= i < |before| && before[i].id != reviewId ==> before[i] in after)
  {
    if courseId !in m then None
    else Some(m[courseId := Lists.RemoveByKey(m[courseId], ReviewId, reviewId)])
  }

  /** Deleting the same review twice is deleting it once. */
  lemma DeleteIdempotent(m: Reviews, reviewId: string, courseId: string)
    requires courseId in m
    ensures DeleteReview(DeleteReview(m, reviewId, courseId).value, reviewId, courseId)
         == DeleteReview(m, reviewId, courseId)
  {
    Lists.RemoveIdempotent(m[courseId], ReviewId, reviewId);
    var once := DeleteReview(m, reviewId, courseId).value;
    assert once[courseId] == Lists.RemoveByKey(m[courseId], ReviewId, reviewId);
    assert once[courseId := Lists.RemoveByKey(once[courseId], ReviewId, reviewId)] == once;
  }

  /** Deletion keeps relative order: a list split in two loses its matches in each part. */
  lemma DeleteKeepsOrder(m: Reviews, reviewId: string, courseId: string, front: seq<Review>, back: seq<Review>)
    requires courseId in m && m[courseId] == front + back
    ensures DeleteReview(m, reviewId, courseId).value[courseId]
         == Lists.RemoveByKey(front, ReviewId, reviewId) + Lists.RemoveByKey(back, ReviewId, reviewId)
  {
    Lists.RemoveAppend(front, back, ReviewId, reviewId);
  }

  /** Updating with the same review twice is updating once. */
  lemma UpdateIdempotent(m: Reviews, review: Review)
    requires review.courseId in m
    ensures UpdateReview(UpdateReview(m, review).value, review) == UpdateReview(m, review)
  {
    Lists.ReplaceIdempotent(m[review.courseId], ReviewId, review);
    var once := UpdateReview(m, review).value;
    assert once[review.courseId := Lists.ReplaceByKey(once[review.courseId], ReviewId, review)] == once;
  }

  /** An update followed by deleting that review leaves the same store as deleting it directly. */
  lemma UpdateThenDelete(m: Reviews, review: Review)
    requires review.courseId in m
    ensures DeleteReview(UpdateReview(m, review).value, review.id, review.courseId)
         == DeleteReview(m, review.id, review.courseId)
  {
    var c := review.courseId;
    Lists.RemoveAfterReplace(m[c], ReviewId, review);
    assert ReviewId(review) == review.id;
    var updated := UpdateReview(m, review).value;
    assert updated[c] == Lists.ReplaceByKey(m[c], ReviewId, review);
    assert updated[c := Lists.RemoveByKey(updated[c], ReviewId, review.id)]
        == m[c := Lists.RemoveByKey(m[c], ReviewId, review.id)];
  }
}

=== FILE: site_settings.dfy ===
/**
 * The admin site-settings form: its edit handlers on the in-memory form object, the `FormData`
 * it serialises on submit, and the guard that refuses to save without a settings id.
 */
module SiteSettings {
  import opened Wrappers
  import Js
  import PocketBase

  /** The form state: a partial settings record, one property per key. */
  type Form = Js.Entries<Js.JsValue>

  // ---------------------------------------------------------------------------
  // Serialisation
  // ---------------------------------------------------------------------------

  /** The two nested-object fields, sent as JSON text. */
  predicate IsJsonField(key: string) {
    key == "social_links" || key == "theme_colors"
  }

  /**
   * What one form property contributes to the request: JSON for the nested fields, the value's
   * string form for any other defined, non-null field except `logo_url`, nothing otherwise.
   */
  function FieldEntry(key: string, value: Js.JsValue, stringify: Js.JsValue -> string): (e: Option<PocketBase.FormValue>)
    ensures e.Some? <==> IsJsonField(key) || (!value.Undefined? && !value.Null? && key != "logo_url")
    ensures IsJsonField(key) ==> e == Some(PocketBase.Text(stringify(value)))
    ensures e.Some? && !IsJsonField(key) ==> e == Some(PocketBase.Text(Js.ToString(value)))
  {
    if IsJsonField(key) then Some(PocketBase.Text(stringify(value)))
    else if !value.Undefined? && !value.Null? && key != "logo_url" then Some(PocketBase.Text(Js.ToString(value)))
    else None
  }

  /** What the request holds for `key` when the form is a proper object. */
  function ExpectedField(form: Form, key: string, stringify: Js.JsValue -> string): Option<PocketBase.FormValue> {
    match Js.Get(form, key)
    case None => None
    case Some(v) => FieldEntry(key, v, stringify)
  }

  /**
   * The form's properties appended in `Object.entries` order. Only keys of the form occur,
   * `logo_url` never does, and for an object with distinct keys every key's entry is exactly
   * what `FieldEntry` says of its value.
   */
  function Fields(form: Form, stringify: Js.JsValue -> string): (data: PocketBase.FormData)
    ensures |data| <= |form|
    ensures forall j :: 0 <= j < |data| ==> data[j].0 in Js.Keys(form) && data[j].0 != "logo_url"
    ensures forall j :: 0 <= j < |data| ==> data[j].1.Text?
    ensures Js.Distinct(form) ==> Js.Distinct(data)
    ensures Js.Distinct(form) ==> forall k :: Js.Get(data, k) == ExpectedField(form, k, stringify)
  {
    if |form| == 0 then []
    else
      var (k, v) := form[0];
      var rest := Fields(form[1..], stringify);
      Js.KeysCons(form);
      var data := match FieldEntry(k, v, stringify)
        case None => rest
        case Some(e) => [(k, e)] + rest;
      FieldsStep(form, rest, data, stringify);
      data
  }

  /** The inductive step of `Fields`' contract for a form with distinct keys. */
  lemma FieldsStep(form: Form, rest: PocketBase.FormData, data: PocketBase.FormData, stringify: Js.JsValue -> string)
    requires |form| > 0
    requires forall j :: 0 <= j < |rest| ==> rest[j].0 in Js.Keys(form[1..])
    requires Js.Distinct(form[1..]) ==> Js.Distinct(rest)
    requires Js.Distinct(form[1..]) ==> forall k :: Js.Get(rest, k) == ExpectedField(form[1..], k, stringify)
    requires FieldEntry(form[0].0, form[0].1, stringify).None? ==> data == rest
    requires FieldEntry(form[0].0, form[0].1, stringify).Some? ==>
      data == [(form[0].0, FieldEntry(form[0].0, form[0].1, stringify).value)] + rest
    ensures Js.Distinct(form) ==> Js.Distinct(data)
    ensures Js.Distinct(form) ==> forall k :: Js.Get(data, k) == ExpectedField(form, k, stringify)
  {
    if Js.Distinct(form) {
      Js.DistinctTail(form);
      var k0 := form[0].0;
      assert k0 !in Js.Keys(rest);
      FieldsStepGet(form, rest, data, stringify);
      if data != rest {
        FieldsStepDistinct(rest, data);
      }
    }
  }

  /** Under a fresh first key, every lookup in the longer request is what the form says. */
  lemma FieldsStepGet(form: Form, rest: PocketBase.FormData, data: PocketBase.FormData, stringify: Js.JsValue -> string)
    requires |form| > 0 && form[0].0 !in Js.Keys(form[1..]) && form[0].0 !in Js.Keys(rest)
    requires forall k :: Js.Get(rest, k) == ExpectedField(form[1..], k, stringify)
    requires FieldEntry(form[0].0, form[0].1, stringify).None? ==> data == rest
    requires FieldEntry(form[0].0, form[0].1, stringify).Some? ==>
      data == [(form[0].0, FieldEntry(form[0].0, form[0].1, stringify).value)] + rest
    ensures forall k :: Js.Get(data, k) == ExpectedField(form, k, stringify)
  {
    var k0 := form[0].0;
    forall k ensures Js.Get(data, k) == ExpectedField(form, k, stringify) {
      Js.ConsGet(form[0], form[1..], k);
      assert [form[0]] + form[1..] == form;
      if data != rest {
        Js.ConsGet(data[0], rest, k);
        assert [data[0]] + rest == data;
      }
    }
  }

  /** Putting an entry with a fresh key in front of a request with distinct keys keeps them distinct. */
  lemma FieldsStepDistinct(rest: PocketBase.FormData, data: PocketBase.FormData)
    requires Js.Distinct(rest) && |data| == |rest| + 1 && data[1..] == rest && data[0].0 !in Js.Keys(rest)
    ensures Js.Distinct(data)
  {
    forall i, j | 0 <= i < j < |data| ensures data[i].0 != data[j].0 {
      if i == 0 {
        assert data[j] == rest[j - 1];
        assert Js.Keys(rest)[j - 1] == rest[j - 1].0;
      } else {
        assert data[i] == rest[i - 1] && data[j] == rest[j - 1];
      }
    }
  }

  /** Serialising a form in two parts gives the two parts' entries in the same order. */
  lemma {:induction false} FieldsAppend(a: Form, b: Form, stringify: Js.JsValue -> string)
    ensures Fields(a + b, stringify) == Fields(a, stringify) + Fields(b, stringify)
  {
    if |a| > 0 {
      assert (a + b)[0] == a[0];
      assert (a + b)[1..] == a[1..] + b;
      FieldsAppend(a[1..], b, stringify);
      var rest := Fields(a[1..], stringify);
      match FieldEntry(a[0].0, a[0].1, stringify)
      case None =>
        assert Fields(a, stringify) == rest;
        assert Fields(a + b, stringify) == Fields(a[1..] + b, stringify);
      case Some(e) =>
        assert Fields(a, stringify) == [(a[0].0, e)] + rest;
        assert Fields(a + b, stringify) == [(a[0].0, e)] + Fields(a[1..] + b, stringify);
    } else {
      assert a + b == b;
    }
  }

  /** `handleSubmit`'s request: the form's fields, then the chosen logo file as `site_logo`. */
  function Serialise(form: Form, logo: Option<PocketBase.FileRef>, stringify: Js.JsValue -> string): (data: PocketBase.FormData)
    ensures |data| == |Fields(form, stringify)| + (if logo.Some? then 1 else 0)
    ensures data[..|Fields(form, stringify)|] == Fields(form, stringify)
    ensures logo.Some? ==> data[|data| - 1] == ("site_logo", PocketBase.Blob(logo.value))
    ensures forall j :: 0 <= j < |data| && data[j].1.Blob? ==>
      logo.Some? && j == |data| - 1 && data[j] == ("site_logo", PocketBase.Blob(logo.value))
    ensures forall j :: 0 <= j < |data| ==> data[j].0 != "logo_url"
  {
    Fields(form, stringify) + (if logo.Some? then [("site_logo", PocketBase.Blob(logo.value))] else [])
  }

  /** Without a logo and with an empty form the request is empty. */
  lemma SerialiseEmpty(stringify: Js.JsValue -> string)
    ensures Serialise([], None, stringify) == []
  {
  }

  // ---------------------------------------------------------------------------
  // Edit handlers
  // ---------------------------------------------------------------------------

  /** A text input or text area: the named field becomes the typed string. */
  function HandleInputChange(form: Form, name: string, value: string): (r: Form)
    ensures Js.Get(r, name) == Some(Js.Str(value))
    ensures forall k :: k != name ==> Js.Get(r, k) == Js.Get(form, k)
    ensures Js.Distinct(form) ==> Js.Distinct(r)
  {
    if Js.Distinct(form) then
      Js.SetDistinct(form, name, Js.Str(value));
      Js.Set(form, name, Js.Str(value))
    else
      Js.Set(form, name, Js.Str(value))
  }

  /** The properties of the nested object under `key` (none if it is not an object). */
  function Nested(form: Form, key: string): Js.Entries<Js.JsValue> {
    Js.SpreadOf(Js.Get(form, key))
  }

  /** `{ ...prev, [key]: { ...prev[key], [slot]: value } }`. */
  function SetNested(form: Form, key: string, slot: string, value: string): (r: Form)
    ensures Js.Get(r, key) == Some(Js.Obj(Nested(r, key)))
    ensures Js.Get(Nested(r, key), slot) == Some(Js.Str(value))
    ensures forall s :: s != slot ==> Js.Get(Nested(r, key), s) == Js.Get(Nested(form, key), s)
    ensures forall k :: k != key ==> Js.Get(r, k) == Js.Get(form, k)
    ensures Js.Distinct(form) ==> Js.Distinct(r)
  {
    var inner := Js.Set(Nested(form, key), slot, Js.Str(value));
    if Js.Distinct(form) then
      Js.SetDistinct(form, key, Js.Obj(inner));
      Js.Set(form, key, Js.Obj(inner))
    else
      Js.Set(form, key, Js.Obj(inner))
  }

  /** A social-link input: only that platform's link changes. */
  function HandleSocialLinkChange(form: Form, platform: string, value: string): (r: Form)
    ensures Js.Get(Nested(r, "social_links"), platform) == Some(Js.Str(value))
    ensures forall p :: p != platform ==>
      Js.Get(Nested(r, "social_links"), p) == Js.Get(Nested(form, "social_links"), p)
    ensures forall k :: k != "social_links" ==> Js.Get(r, k) == Js.Get(form, k)
  {
    SetNested(form, "social_links", platform, value)
  }

  /** A colour picker: only that colour slot changes. */
  function HandleColorChange(form: Form, color: string, slot: string): (r: Form)
    ensures Js.Get(Nested(r, "theme_colors"), slot) == Some(Js.Str(color))
    ensures forall s :: s != slot ==>
      Js.Get(Nested(r, "theme_colors"), s) == Js.Get(Nested(form, "theme_colors"), s)
    ensures forall k :: k != "theme_colors" ==> Js.Get(r, k) == Js.Get(form, k)
  {
    SetNested(form, "theme_colors", slot, color)
  }

  /** Changing a link leaves the colours alone, and the other way round. */
  lemma LinksAndColoursIndependent(form: Form, platform: string, link: string, slot: string, color: string)
    ensures Nested(HandleSocialLinkChange(form, platform, link), "theme_colors") == Nested(form, "theme_colors")
    ensures Nested(HandleColorChange(form, color, slot), "social_links") == Nested(form, "social_links")
  {
  }

  /** Typing the same link twice is typing it once. */
  lemma SocialLinkIdempotent(form: Form, platform: string, value: string)
    ensures var once := HandleSocialLinkChange(form, platform, value);
      HandleSocialLinkChange(once, platform, value) == once
  {
    var inner := Js.Set(Nested(form, "social_links"), platform, Js.Str(value));
    var once := HandleSocialLinkChange(form, platform, value);
    assert Nested(once, "social_links") == inner;
    Js.SetTwice(Nested(form, "social_links"), platform, Js.Str(value));
    Js.SetTwice(form, "social_links", Js.Obj(inner));
  }

  /** The file input: the first chosen file replaces the logo; an empty choice keeps it. */
  function HandleLogoChange(logo: Option<PocketBase.FileRef>, files: seq<PocketBase.FileRef>): (r: Option<PocketBase.FileRef>)
    ensures |files| > 0 ==> r == Some(files[0])
    ensures |files| == 0 ==> r == logo
  {
    if |files| > 0 then Some(files[0]) else logo
  }

  /** The maintenance switch shows `formData.maintenance_mode || false`. */
  function MaintenanceShown(form: Form): (shown: bool)
    ensures Js.Get(form, "maintenance_mode").None? ==> !shown
    ensures forall b :: Js.Get(form, "maintenance_mode") == Some(Js.Bool(b)) ==> shown == b
  {
    match Js.Get(form, "maintenance_mode")
    case None => false
    case Some(v) => Js.Truthy(v)
  }

  /** Flipping the switch stores the boolean and the switch then shows it. */
  function ToggleMaintenance(form: Form, checked: bool): (r: Form)
    ensures MaintenanceShown(r) == checked
    ensures forall k :: k != "maintenance_mode" ==> Js.Get(r, k) == Js.Get(form, k)
  {
    Js.Set(form, "maintenance_mode", Js.Bool(checked))
  }

  // ---------------------------------------------------------------------------
  // Saving
  // ---------------------------------------------------------------------------

  const MsgNoSettingsId := "No settings ID found"

  /**
   * The update mutation: without a loaded settings record carrying a non-empty id it fails
   * before any call; otherwise the outcome is the remote update's.
   */
  function SaveSettings<T>(settingsId: Option<string>, remote: Result<T, PocketBase.Failure>): (r: Result<T, PocketBase.Failure>)
    ensures !Js.Present(settingsId) ==> r == Err(PocketBase.PlainError(MsgNoSettingsId))
    ensures Js.Present(settingsId) ==> r == remote
  {
    if !Js.Present(settingsId) then Err(PocketBase.PlainError(MsgNoSettingsId)) else remote
  }

  const ToastPrefix := "Failed to update settings. "

  /** The error toast's description: the fixed prefix, then `error.message` (`undefined` for a non-Error). */
  function FailureToast(e: PocketBase.Failure): (t: string)
    ensures |t| >= |ToastPrefix| && t[..|ToastPrefix|] == ToastPrefix
    ensures !e.NonError? ==> t[|ToastPrefix|..] == e.message
    ensures e.NonError? ==> t[|ToastPrefix|..] == "undefined"
  {
    ToastPrefix + PocketBase.MessageOr(e, "undefined")
  }

  /** Saving without an id shows the fixed toast whatever the server would have said. */
  lemma MissingIdToast<T>(remote: Result<T, PocketBase.Failure>)
    ensures SaveSettings(None, remote) == Err(PocketBase.PlainError(MsgNoSettingsId))
    ensures FailureToast(SaveSettings(None, remote).error) == "Failed to update settings. No settings ID found"
  {
    assert PocketBase.MessageOr(PocketBase.PlainError(MsgNoSettingsId), "undefined") == MsgNoSettingsId;
  }
}

=== FILE: user_store.dfy ===
/**
 * The persisted current-user store. The profile is held as the plain object it is at run time, so
 * that a partial update can be stated key by key.
 */
module UserStore {
  import opened Wrappers
  import Js

  /** A user profile object (`id`, `name`, `email`, `avatar`, `bio`, `role`, ...). */
  type Profile = Js.Entries<Js.JsValue>

  datatype State = State(currentUser: Option<Profile>)

  /** `setCurrentUser`: the stored user becomes exactly `user`, which may be `null`. */
  function SetCurrentUser(s: State, user: Option<Profile>): (r: State)
    ensures r.currentUser == user
  {
    State(user)
  }

  /**
   * `updateProfile`: with no user the store stays empty; otherwise `{ ...user, ...data }`, so the
   * keys present in `data` take its values and every other key keeps the user's value.
   */
  function UpdateProfile(s: State, data: Profile): (r: State)
    requires Js.Distinct(data)
    ensures s.currentUser.None? <==> r.currentUser.None?
    ensures s.currentUser.Some? ==> forall k :: Js.Get(r.currentUser.value, k) ==
                                      if k in Js.Keys(data) then Js.Get(data, k) else Js.Get(s.currentUser.value, k)
    ensures data == [] ==> r == s
  {
    match s.currentUser
    case None => State(None)
    case Some(user) => State(Some(Js.Merge(user, data)))
  }

  /** Applying the same partial update twice equals applying it once. */
  lemma UpdateProfileIdempotent(s: State, data: Profile)
    requires Js.Distinct(data)
    requires s.currentUser.Some? ==> Js.Distinct(s.currentUser.value)
    ensures UpdateProfile(UpdateProfile(s, data), data) == UpdateProfile(s, data)
  {
    if s.currentUser.Some? {
      Js.MergeIdempotent(s.currentUser.value, data);
    }
  }
}

=== FILE: wrappers.dfy ===
/** Failure-carrying values shared by every module of the model. */
module Wrappers {

  /** A value that may be missing: `undefined`, `null` or an absent key on the JavaScript side. */
  datatype Option<+T> = None | Some(value: T) {

    /** The wrapped value, or `default` when there is none (the `x ?? default` idiom). */
    function GetOr(default: T): T {
      match this
      case Some(v) => v
      case None => default
    }
  }

  /** The outcome of an asynchronous call: its resolved value or the value it was rejected with. */
  datatype Result<+T, +E> = Ok(value: T) | Err(error: E) {

    /** Replaces the rejection value, leaving a resolved value alone (a `catch` that rethrows). */
    function MapErr<F>(f: E -> F): (r: Result<T, F>)
      ensures Ok? <==> r.Ok?
      ensures Ok? ==> r.value == value
      ensures Err? ==> r.error == f(error)
    {
      match this
      case Ok(v) => Ok(v)
      case Err(e) => Err(f(e))
    }
  }
}
